=== FILE: README.md ===
# AsteroidsNeuralNetwork in Dafny

A model of the logic at the heart of AsteroidsNeuralNetwork. In that program, ships steered by small
feed-forward neural networks learn to play Asteroids through a genetic algorithm. The model covers four parts:

- **Learning** (`network.dfy`, `genetics.dfy`):
  - the network's layer shapes;
  - how `getCopyOfWeights` flattens the layer weights and how `setWeights` slices them back;
  - the size guard and weight indexing of `Layer.activate`;
  - the layer-by-layer `update`;
  - roulette-wheel selection;
  - the `epoch` fill loop.
- **The simulation package** (`config.dfy`, `sim_bullet.dfy`, `sim_asteroid.dfy`, `sim_ship.dfy`, `simulation.dfy`):
  - the `Configuration` record;
  - bullets, which have a fixed velocity, wrap around and report explosions and timeouts;
  - asteroids: their initial velocity, split constructors and wrap-around;
  - the ship:
    - the "k nearest asteroids" sensor, with its minimal-image offset and normalisation;
    - the discretisation of network outputs into torque, thrust and a shot;
    - velocity clamps and the shoot gate;
    - kill counting and fitness;
    - its timers;
  - the episode (`start`, `update`, `onShipUpdated` with the asteroid split rule, `stop`, `isFinished`).
- **The GameModel package** (`game_asteroid.dfy`, `game_ship.dfy`, `game_simulation.dfy`):
  - the asteroid constructors' clamps and drift;
  - the ship's clamps, wrap-around and shoot gate;
  - bullet time-outs and `getPoints`;
  - the nearest-asteroid argmin and the `update` wiring.
- **The fixed-timestep loop** (`game_loop.dfy`): it clamps the frame time, accumulates it, integrates in steps of `dt` and blends the remainder.

## Conventions

- Doubles are `real`. Kotlin `Int`/`Long` are unbounded `int`/`nat`.
- `sin` and `cos` of a heading in degrees are the fields of `Physics.Trig`, left uninterpreted. The same holds for the sigmoid.
- The network a ship consults is a `brain` parameter. Every `NonDeterminism` draw and every `Math.random()` is a parameter: a `Draw` record, or a function from the draw's position to its value.
- Collision geometry is a predicate parameter: `Simulation.ShipCollision` and `Simulation.BulletHit`.
- Distances are compared squared instead of through `Math.sqrt`.
- Timers become an "armed" flag plus an explicit event function:
  - `SimShip.ReloadElapsed`, `SimShip.SecondElapsed`;
  - `SimBullet.TimeoutElapsed`, `Simulation.TimeoutElapsed`;
  - `GameShip.ReloadTick`.
- Callbacks are either a `listening` flag with the events a call produces, or a direct call.
- Object identity, as in `List.remove(bullet)`, is a bullet serial number taken from the ship's count of bullets fired.
- Exceptions are `Faults.Result` values:
  - `IllegalState` for `IllegalStateException`;
  - `IndexOutOfBounds` for array, list and `sliceArray` overruns.
- Each source file is modelled as written, even where the files disagree with each other (the snapshot does not compile as a whole). Two examples:
  - `Ship.kt` builds float arrays while `Network.kt` takes doubles;
  - `Simulation.kt` re-declares `Ship`, `Asteroid` and `Bullet`.

  The simulation package is modelled on `Ship.kt`, `Asteroid.kt` and `Bullet.kt`. From the classes re-declared in `Simulation.kt`, only the two things the episode uses are taken: the two-argument `Asteroid(size, parent)` constructor and the continuous-thrust mapping of the in-file ship.
- Two behaviours a reader may not expect are modelled exactly as the code has them:
  - `Layer.activate` guards with `inputs.size >= weights.size`, not with an equality against the layer's input size;
  - `setWeights` does not check the length of its argument, and it slices with inclusive ranges that overlap. See Findings.

A cross-file observation: the ship feeds the network `2 k + 4` inputs (k sensed pairs, its heading and its velocity). The network's first layer is sized for `2 k` inputs. `SimShip.ShipInputsOverrunDefaultNetwork` proves that this passes the size guard and then reads past the layer's weights, for every `k >= 1`. With the default network, `update` of the ship would therefore always throw; `SimShip.DefaultNetworkRejectsShipInputs` carries this through the whole network pass.

## Model

| member | source | states |
|---|---|---|
| Physics.Wrap | src/Simulation/Asteroid.kt:49-52 | the result lies in [0, extent]; an in-range value is kept; a value past the far edge becomes 0; a negative value becomes the extent |
| Physics.Clamp | src/Simulation/Ship.kt:191 | `max(lo, min(hi, v))` lies in [lo, hi], equals v inside the interval and the nearer bound outside it |
| NeuralNetwork.DefaultTopology | src/Learning/Network.kt:6-9 | three layers, three outputs, two inputs per sensed asteroid, and a hidden width of INPUT_COUNT + 1 (the division binds before the addition) |
| NeuralNetwork.NewNetwork | src/Learning/Network.kt:21-29 | LAYER_COUNT layers: input to hidden first, hidden to hidden in the middle, hidden to output last (input to output with two layers); each holds inputSize * outputSize + 1 weights, taken from the draws |
| NeuralNetwork.CopyOfWeightsPlacesEachLayer | src/Learning/Network.kt:75-81 | the array `CopyOfWeights` (getCopyOfWeights) builds holds layer k's weights, in order, right after those of the layers before it |
| NeuralNetwork.ShapedWeightCount | src/Learning/Network.kt:86-88 | getCopyOfWeights of a well-shaped network has one weight per connection plus one bias slot per layer |
| NeuralNetwork.SetWeights | src/Learning/Network.kt:32-63 | succeeds exactly when the last inclusive slice fits (length > sum of in * out); it then builds the closed-form sliced network, which is well shaped and holds sum in * out + LAYER_COUNT weights; otherwise it fails with IndexOutOfBounds, the error sliceArray raises |
| NeuralNetwork.SliceNext | src/Learning/Network.kt:40-59 | one loop pass: the slice starts at the sum of (size - 1) over the rebuilt layers, exists iff Start(layer + 1) < length, and then is exactly the closed-form layer |
| NeuralNetwork.AdjacentLayersShareAWeight | src/Learning/Network.kt:37-59 | each rebuilt layer has in * out + 1 weights, and the last weight of layer k is the first weight of layer k + 1 (one shared flat index) |
| NeuralNetwork.GetThenSetShiftsSecondLayer | src/Learning/Network.kt:37-59 | setWeights(getCopyOfWeights()) succeeds, but the first weight of layer 1 is then layer 0's bias slot |
| NeuralNetwork.GetThenSetIsNotIdentity | src/Learning/Network.kt:32-63 | a concrete well-shaped default-topology network that get-then-set does not give back |
| NeuralNetwork.SetWeightsExact | src/Learning/Network.kt:32-63 | corrected setWeights: succeeds exactly on arrays of length sum in * out + LAYER_COUNT, giving a well-shaped network |
| NeuralNetwork.SetExactAfterGet | src/Learning/Network.kt:32-81 | setWeightsExact(getCopyOfWeights(n)) == n for every well-shaped n |
| NeuralNetwork.GetAfterSetExact | src/Learning/Network.kt:32-81 | getCopyOfWeights(setWeightsExact(w)) == w whenever the set succeeds |
| NeuralNetwork.Activate | src/Learning/Network.kt:91-115 | IllegalState iff inputs.size >= weights.size; an index error iff the guard passes but some read `weights[input * output + 1]` overruns; otherwise exactly outputSize values, each the sigmoid of the weighted sum |
| NeuralNetwork.LastReadDecidesBounds | src/Learning/Network.kt:100-105 | every read is in bounds iff the read for the last input and last output is |
| NeuralNetwork.WeightIndexInBounds | src/Learning/Network.kt:100-105 | in a layer of in * out + 1 weights, the index input * output + 1 is in bounds for input < in and output < out |
| NeuralNetwork.ActivateAcceptsFittingInputs | src/Learning/Network.kt:93-105 | a shaped layer activates without error on any input array no longer than its inputSize |
| NeuralNetwork.GuardDoesNotProtectReads | src/Learning/Network.kt:93-105 | 14 inputs pass the guard of a 10-input, 11-output layer and then read past its weights |
| NeuralNetwork.Feed | src/Learning/Network.kt:66-72 | no layers give back the inputs; a successful pass has the last layer's outputSize values |
| NeuralNetwork.FeedOneMore | src/Learning/Network.kt:68-70 | each layer activates on what the layers before it returned |
| NeuralNetwork.FeedStopsAtFirstLayer | src/Learning/Network.kt:66-72 | when the first layer throws, the whole pass throws with that error and no later layer runs |
| NeuralNetwork.FeedShapedPrefix | src/Learning/Network.kt:66-72 | through a well-shaped network, every prefix of layers succeeds on inputs no longer than INPUT_COUNT and returns that prefix's last output width |
| NeuralNetwork.UpdateReturnsOutputCount | src/Learning/Network.kt:66-72 | `NeuralNetwork.Update` (Network.update, the `Feed` over all layers) of a well-shaped network with at least three layers succeeds and returns outputCount values |
| NeuralNetwork.DefaultUpdateReturnsThree | src/Learning/Network.kt:6-11 | the file's own topology returns OUTPUT_COUNT = 3 values for every input array of at most INPUT_COUNT values |
| Genetics.RouletteSelection | src/Learning/Genetics.kt:34-58 | fails iff the population is empty; otherwise returns the first member whose running fitness exceeds slice = r * total, or the last member when none does |
| Genetics.RoulettePickIsUnique | src/Learning/Genetics.kt:44-53 | a slice point determines the pick |
| Genetics.ZeroFitnessPicksLast | src/Learning/Genetics.kt:55-57 | with all fitness zero, selection returns the last member whatever r is |
| Genetics.PickHasPositiveFitness | src/Learning/Genetics.kt:42-53 | with non-negative fitness, positive total and 0 <= r < 1, the loop returns, and the chosen member has positive fitness |
| Genetics.Epoch | src/Learning/Genetics.kt:10-29 | exactly one child per member of the population, each the mutated crossover of two roulette picks drawn in order; the population itself is unchanged |
| Genetics.BreedChild | src/Learning/Genetics.kt:16-27 | one pass: dad, then mum, then mutate(crossover(dad, mum)), using the next two random values |
| Config.MaxAsteroidsCountsLineages | src/Simulation/Configuration.kt:5-8 | with maxChunkFactor 3, the default maxAsteroids equals asteroids times the size of one asteroid's split lineage iff chunkCount is 0 or 3 |
| Config.DefaultsCountLineages | src/Simulation/Configuration.kt:3-17 | both default configurations give maxAsteroids = asteroids * lineage size (65 for the stand-alone record) |
| SimBullet.Fire | src/Simulation/Bullet.kt:12-18 | a bullet starts at the ship's position and heading, with its own serial, without callbacks |
| SimBullet.FiredAtBulletSpeed | src/Simulation/Bullet.kt:17-18 | relative to the firing ship, a bullet's speed is exactly bulletVel (given sin^2 + cos^2 = 1) |
| SimBullet.SetCallbacks | src/Simulation/Bullet.kt:42-45 | the bullet now reports to its listener and nothing else changes |
| SimBullet.Update | src/Simulation/Bullet.kt:51-59 | the position moves by exactly (vX, vY) unless it wraps, ends in [0, WIDTH] x [0, HEIGHT], and nothing else changes |
| SimBullet.VelocityIsFixed | src/Simulation/Bullet.kt:17-18 | over any number of updates the velocity, serial and listener are those it was fired with, and the position stays in the window |
| SimBullet.Explode | src/Simulation/Bullet.kt:47-49 | one onBulletExploded call when callbacks are set, none otherwise |
| SimBullet.TimeoutElapsed | src/Simulation/Bullet.kt:30-35 | one onBulletTimedOut call when callbacks are set, none otherwise |
| SimAsteroid.InitialVelocityBounds | src/Simulation/Asteroid.kt:15-16 | (2 (r - 1) + 1) * size lies in [-size, size) for r in [0, 1) |
| SimAsteroid.New | src/Simulation/Asteroid.kt:7-18 | size as given, rotation 0, spin drawn; a valid draw puts it inside the world |
| SimAsteroid.NewSpeedBoundedBySize | src/Simulation/Asteroid.kt:15-16 | a new asteroid moves less than its size along each axis per step |
| SimAsteroid.Split | src/Simulation/Asteroid.kt:20-26 | the chunk takes the parent's position, and its velocity is a third of the bullet's plus a signed draw |
| SimAsteroid.SplitVelocityNearBullet | src/Simulation/Asteroid.kt:24-25 | with magnitudes drawn from [0, 2), each velocity component is within 2 of a third of the bullet's |
| SimAsteroid.Update | src/Simulation/Asteroid.kt:45-53 | rot advances by vRot; x, y advance by vX, vY; overflow wraps to 0 and underflow to the far edge; nothing else changes |
| SimShip.New | src/Simulation/Ship.kt:11-31 | centred, at rest, unable to shoot, no bullets or kills, survival timer running, no callbacks |
| SimShip.Reset | src/Simulation/Ship.kt:93-112 | centred and at rest, may shoot, no bullets, senses nothing, zero kills and seconds, no win recorded, both timers running |
| SimShip.ResetScoresNothing | src/Simulation/Ship.kt:78-112 | a reset ship has fitness 0, and resetting twice is resetting once |
| SimShip.SetCallbacks | src/Simulation/Ship.kt:52-55 | only the listener changes |
| SimShip.ReloadElapsed | src/Simulation/Ship.kt:14-16 | a running reload timer lets the ship shoot again; a stopped one changes nothing |
| SimShip.SecondElapsed | src/Simulation/Ship.kt:33-37 | a running survival timer adds one second survived; a stopped one changes nothing |
| SimShip.Stop | src/Simulation/Ship.kt:39-43 | both timers stop; when the kill count equals the starting asteroid count, the seconds survived become the win time, and otherwise the win time is left as it was |
| SimShip.StopSilencesTimers | src/Simulation/Ship.kt:39-43 | stopping is idempotent, and once stopped neither timer changes the ship |
| SimShip.RemoveSerial | src/Simulation/Ship.kt:220 | removal drops the first bullet with that identity and keeps the others in order; it is a no-op when the bullet is gone |
| SimShip.RemoveSerialIsOneBulletLess | src/Simulation/Ship.kt:220 | as multisets, the bullets after removal plus the removed bullet are the bullets before |
| SimShip.OnBulletExploded | src/Simulation/Ship.kt:219-222 | the bullet is removed and the kill count rises by one, even when the bullet was already gone |
| SimShip.OnBulletTimedOut | src/Simulation/Ship.kt:224-226 | the bullet is removed and nothing else changes |
| SimShip.ExplosionScoresOneKill | src/Simulation/Ship.kt:78-80 | each explosion adds exactly asteroidFitnessWeight to `SimShip.Fitness` (fitness(): kills times asteroidFitnessWeight) |
| SimShip.HandleEvents | src/Simulation/Ship.kt:219-226 | delivering bullet callbacks raises the kill count by the number of explosions, and touches only bullets and kills |
| SimShip.MinimalImageIsNearest | src/Simulation/Ship.kt:123-126 | the wrap offset is in {-1, 0, 1}, and the wrapped offset is at most half the world and no longer than any of the three images |
| SimShip.NormaliseRoundTrip | src/Simulation/Ship.kt:140-141 | normalising divides by the extent, de-normalising (lines 282-283) multiplies by it, and each inverts the other |
| SimShip.NormaliseBounds | src/Simulation/Ship.kt:140-141 | offsets in [-extent, extent] normalise into [-1, 1] |
| SimShip.DebugEndpoint | src/Simulation/Ship.kt:282-298 | the debug line's endpoint is clamped into [0, extent] |
| SimShip.DebugEndpointFindsTarget | src/Simulation/Ship.kt:282-298 | for a sensed point inside the world, the debug line ends exactly at that point |
| SimShip.ClosestUntaken | src/Simulation/Ship.kt:119-133 | none iff every asteroid is taken; otherwise an untaken asteroid of least wrapped distance, the lowest index on ties |
| SimShip.VectorsToClosestAsteroids | src/Simulation/Ship.kt:114-155 | exactly asteroidsToConsider pairs; min(asteroidsToConsider, asteroids) distinct valid picks, each nearest among those not yet picked, sensed in pick order; (0.0, 0.0) padding after them |
| SimShip.PicksAreNearestFirst | src/Simulation/Ship.kt:119-133 | successive picks are at non-decreasing distance |
| SimShip.ClosestUntakenIsUnique | src/Simulation/Ship.kt:119-133 | the strict `<` scan has at most one winner per round: two asteroids that both qualify are the same |
| SimShip.SamePicks | src/Simulation/Ship.kt:118-146 | two pick lists that each take the nearest untaken asteroid every round agree round by round |
| SimShip.SensingIsDeterministic | src/Simulation/Ship.kt:114-155 | the sensed pairs and the picks are fully determined by the ship's position and the field |
| SimShip.EmptyFieldSensesNothing | src/Simulation/Ship.kt:134-152 | with no asteroid in the field nothing is picked and every one of the k pairs is (0.0, 0.0) |
| SimShip.EmptyFieldInputs | src/Simulation/Ship.kt:150-177 | with no asteroid in the field the network still sees 2 k + 4 inputs: 2 k zeros, then heading and velocity |
| SimShip.Flatten | src/Simulation/Ship.kt:163-167 | each pair becomes two consecutive inputs, in order |
| SimShip.NetworkInputs | src/Simulation/Ship.kt:163-177 | 2 k + 4 inputs: the flattened pairs, then heading, then velocity |
| SimShip.Torque | src/Simulation/Ship.kt:186 | torque is in {-1, 0, 1}: +1 iff the output is positive, -1 iff it is negative |
| SimShip.Thrust | src/Simulation/Ship.kt:187 | thrust is in {0, 1}: 1 iff the output is positive |
| SimShip.Steer | src/Simulation/Ship.kt:191-200 | the clamped spin and thrust terms lie within maxRotVel and maxVel; when nothing is clamped the spin is old spin + torque - rotational drag and each velocity component is old velocity + thrust along the new heading (-sin, cos) - drag; rot advances by the new vRot; the position moves by the new velocity unless it wraps, and stays in the world |
| SimShip.ShootGate | src/Simulation/Ship.kt:203-210 | a bullet is added iff canShoot and wantsToShoot; it is fired from the ship's state and listens to the ship; canShoot is then false; otherwise nothing changes |
| SimShip.BulletLeavesFromShip | src/Simulation/Ship.kt:206-207 | a new bullet starts at the ship's position and heading and reports to the ship |
| SimShip.UpdateBullets | src/Simulation/Ship.kt:213 | every bullet takes exactly one step |
| SimShip.Act | src/Simulation/Ship.kt:186-213 | acting on three outputs gives the spin, heading, velocity and position of `Steer` on the discretised torque and thrust, and so keeps spin and both thrust components within their clamps and the ship in the world; it steps every old bullet; when the ship may and wants to shoot it appends exactly one bullet, fired from the steered ship and stepped once, re-arms the reload timer and counts the shot, and otherwise leaves the reload timer and shot count alone; kills, seconds, the survival timer and the listener never change |
| SimShip.Update | src/Simulation/Ship.kt:157-216 | the sensed pairs are the scan's result for this ship and this field; the network sees 2 k + 4 inputs (those pairs, heading, velocity); the update fails iff the network fails (with its error) or gives fewer than three outputs (IndexOutOfBounds); otherwise the ship records its readings and acts on the outputs |
| SimShip.ShipInputsOverrunDefaultNetwork | src/Simulation/Ship.kt:163-180 | 2 k + 4 inputs pass the guard of the default first layer (sized for 2 k) and then overrun its weights |
| SimShip.DefaultNetworkRejectsShipInputs | src/Simulation/Ship.kt:163-182 | a well-shaped default network fails on the ship's 2 k + 4 inputs for every k >= 1, so with it every ship update fails |
| Simulation.New | src/Simulation/Simulation.kt:30-41 | finished, no asteroids, and the episode timer armed |
| Simulation.Start | src/Simulation/Simulation.kt:43-54 | running, exactly `asteroids` new asteroids of size 1, the ship reset and listening, the timer re-armed |
| Simulation.Stop | src/Simulation/Simulation.kt:138-141 | the ship stops and `Simulation.IsFinished` (isFinished, `!running`, Simulation.kt:69-71) holds |
| Simulation.StopIsIdempotent | src/Simulation/Simulation.kt:58-62 | stopping once per colliding asteroid is stopping once |
| Simulation.TimeoutElapsed | src/Simulation/Simulation.kt:36-41 | an armed episode timer ends the episode without touching ship or asteroids |
| Simulation.CollectHits | src/Simulation/Simulation.kt:86-98 | each asteroid is recorded at most once, paired with the first bullet that hits it, in bullet-major order; an asteroid is recorded iff some bullet hits it; a bullet may be recorded once per asteroid it hits |
| Simulation.RecordIfFirst | src/Simulation/Simulation.kt:91-95 | one scan step records the pair exactly when the asteroid is not yet recorded and this bullet is its first hitter |
| Simulation.ExplodeAll | src/Simulation/Simulation.kt:100 | exploding the recorded bullets touches only the ship's bullets and kills, and never lowers the kills |
| Simulation.ExplosionsTradeBulletsForKills | src/Simulation/Simulation.kt:100 | with listening bullets, kills + bullets is conserved, and kills rise by at most the number of recorded bullets |
| Simulation.Chunk | src/Simulation/Simulation.kt:149-152 | a chunk has the given size and the parent's position, with freshly drawn velocity |
| Simulation.ChunkSpeedBoundedBySize | src/Simulation/Simulation.kt:168-169 | a chunk moves less than its size along each axis |
| Simulation.Chunks | src/Simulation/Simulation.kt:103-108 | chunkCount chunks of size s + 1 when s + 1 <= maxChunkFactor, none otherwise, all at the parent's position |
| Simulation.SplitAt | src/Simulation/Simulation.kt:102-110 | a missing index changes nothing; otherwise that asteroid is removed and its chunks appended |
| Simulation.LineageFollowsChunks | src/Simulation/Simulation.kt:102-108 | the lineage count behind the default maxAsteroids is one plus the lineage of each chunk a split appends |
| Simulation.SplitKeepsSizesWithin | src/Simulation/Simulation.kt:101-111 | `SplitAll`, the removal loop over every recorded index in order on the changing list, keeps every size within [1, maxChunkFactor] |
| Simulation.OnShipUpdated | src/Simulation/Simulation.kt:85-116 | records exactly the (asteroid, first hitting bullet) pairs in bullet-major order; explodes the recorded bullets and applies the split rule; when no asteroid is left the ship's timers stop (with the win-time rule) and the episode ends, otherwise it keeps running as before; with listening bullets kills + bullets is conserved; the ship does not move |
| Simulation.MoveAsteroids | src/Simulation/Simulation.kt:58-63 | every asteroid steps once; the episode stops iff some moved asteroid touches the ship |
| Simulation.Update | src/Simulation/Simulation.kt:56-67 | a stopped simulation is unchanged; otherwise every asteroid steps once, the ship senses the moved field from where it stands, and the frame fails iff the network fails or gives fewer than three outputs; on success the ship (stopped first if an asteroid touched it) acts on the outputs, and when it reports to the simulation the hits are recorded on the moved field and its bullets and the field is split; the episode keeps running iff nothing crashed and, while the ship listens, asteroids remain |
| Simulation.FrameKeepsSizesWithin | src/Simulation/Simulation.kt:56-67 | a frame keeps every asteroid's size between 1 and maxChunkFactor |
| Simulation.ContinuousThrust | src/Simulation/Simulation.kt:426 | ((1 - 0) / (1 - -1)) * (o - 1) + 1 is (o + 1) / 2, and maps o into [0, 1] iff o is in [-1, 1] |
| GameLoop.Init | src/GUI/GameLoop.kt:18-32 | no time elapsed, an empty accumulator, and both states the base state |
| GameLoop.FrameTime | src/GUI/GameLoop.kt:42-48 | the clock difference, capped at MAX_ALLOWED_FRAME_TIME_MILLIS = 250 |
| GameLoop.Steps | src/GUI/GameLoop.kt:59-74 | no step below dt; otherwise the floor of accumulator / dt |
| GameLoop.Tick | src/GUI/GameLoop.kt:36-87 | runs floor(accumulated / dt) integrations and advances t by dt each; leaves a remainder in [0, dt) and alpha = remainder / dt in [0, 1) for non-negative input; previousState is the state before the last integration; interpolation does not change the stored states |
| GameLoop.StepsCounted | src/GUI/GameLoop.kt:59-74 | the loop's exit condition determines the step count uniquely |
| GameAsteroid.New | src/GameModel/Asteroid.kt:24-28 | rot is clamped to [-360, 360], vRot and vel to [-2.5, 2.5]; draws in [-1, 1] are scaled exactly |
| GameAsteroid.At | src/GameModel/Asteroid.kt:30-33 | the same draws, placed at the given position |
| GameAsteroid.Update | src/GameModel/Asteroid.kt:42-50 | rot advances by vRot, both coordinates advance by vel, and the position wraps into the window |
| GameAsteroid.UpdateMovesDiagonally | src/GameModel/Asteroid.kt:43-45 | away from the edges, both coordinates change by the same amount vel |
| GameShip.New | src/GameModel/Ship.kt:22-31 | at the origin, able to shoot, no bullets |
| GameShip.ReloadTick | src/GameModel/Ship.kt:33-39 | each reload tick lets the ship shoot and changes nothing else |
| GameShip.SetPosition | src/GameModel/Ship.kt:45-48 | sets the position and nothing else |
| GameShip.TimedOut | src/GameModel/Ship.kt:41-43 | one bullet fewer iff one has that identity; the first bullet with it is cut out and the others keep their order; with none, the ship is unchanged |
| GameShip.RemoveFirstAt | src/GameModel/Ship.kt:41-43 | `remove` takes out exactly the first bullet with the identity, the list before and after it kept as they were |
| GameShip.RemoveFirstWithoutMatch | src/GameModel/Ship.kt:41-43 | removing an identity no bullet carries leaves the list as it was |
| GameShip.TimedOutRemovesExactlyThatBullet | src/GameModel/Ship.kt:41-43 | with distinct identities, the timed-out bullet is gone and every other bullet stays |
| GameShip.Update | src/GameModel/Ship.kt:50-69 | the spin and thrust terms lie within MAX_ROT_VEL and MAX_VEL; when nothing is clamped the spin is old spin + torque - rotational drag and each velocity component is old velocity + thrust along the new heading (-sin, cos) - drag; the position wraps into the window; a bullet at the new position and heading is added iff shooting and canShoot, which clears canShoot |
| GameShip.NoSecondShotBeforeReload | src/GameModel/Ship.kt:62-68 | a ship that has just fired cannot fire again until the reload tick |
| GameShip.GetPoints | src/GameModel/Ship.kt:115-125 | the bullet advances by its initial velocity plus BULLET_VEL along its heading, wraps into the window, and the returned point scaled back is its position |
| GameSimulation.PlaceOnAxis | src/GameModel/Simulation.kt:13-16 | a random placement is clamped into [0, extent], and is exact for r in [0, 1] |
| GameSimulation.New | src/GameModel/Simulation.kt:12-20 | exactly three asteroids, each inside the window, and a new ship |
| GameSimulation.NearestAsteroidToShip | src/GameModel/Simulation.kt:44-57 | fails iff there are no asteroids; otherwise the first asteroid at least distance |
| GameSimulation.FirstNearestIsUnique | src/GameModel/Simulation.kt:44-57 | only one asteroid is the first at least distance |
| GameSimulation.LaterNearestExcludesEarlier | src/GameModel/Simulation.kt:49-53 | because the scan replaces only on a strictly smaller distance, a later winner rules out every earlier asteroid |
| GameSimulation.FirstNearestExists | src/GameModel/Simulation.kt:44-57 | a non-empty field always has a first nearest asteroid, so the argmin is defined exactly when the list is non-empty |
| GameSimulation.VectorBetweenShipAndAsteroid | src/GameModel/Simulation.kt:60-64 | two values that carry the asteroid onto the ship, and whose squared length is the squared distance |
| GameSimulation.Update | src/GameModel/Simulation.kt:24-41 | fails on an empty field; otherwise succeeds iff the network answers the vector to the first nearest asteroid with at least three outputs (failing with the network's error or IndexOutOfBounds); on success the ship is steered by exactly those outputs (torque and thrust as given, shoot iff the third is positive) and every asteroid steps once |

## Left out

- Floating point: doubles are exact reals, so rounding, NaN and infinities are not modelled. This includes Kotlin's `toFloat` when the ship flattens its inputs.
- `Math.sin`, `Math.cos`, `Math.toRadians` and the sigmoid (`Math.exp`) are uninterpreted parameters. `Math.sqrt` is replaced by comparing squared distances, which orders the same way.
- `NonDeterminism` and `Math.random()`: every draw is a parameter. The rejection loops of the random source are not modelled.
- JavaFX `Timeline` and `java.util.Timer`: timers are armed flags plus explicit events. Concurrency, including `CopyOnWriteArrayList` and timer threads racing the update, is not modelled.
- Rendering and collision geometry are not modelled: `getShapes`, `getDebugShapes` (apart from the de-normalisation and clamp), `getPolygon`, `getXPoints`/`getYPoints`, and the `collidesWith` tests. The collision tests are predicate parameters.
- `SimulationController`, `GameController`, `Main`, `Injection` and `Game.kt`: UI and wiring. `NetworkTest` is not part of this model; it expects two outputs where the network has three.
- `crossover` and `mutate`: their bodies are empty in the source, so they are function parameters.
- `Network(configuration)`, `getCopyOfNetworkWeights`/`setNetworkWeights` and `getWeights`/`applyWeights`/`getFitness`: one-line forwards to the network or the ship. The constructor they call does not exist in `Network.kt`.
- The duplicate `Ship` and `Bullet` classes inside `Simulation.kt` are not modelled. The `Ship.kt` and `Bullet.kt` versions are, as the Conventions section explains.
- Simulation.OnShipUpdated: after the first split, the recorded indices refer to a list that has already changed. The model replays that, through `ExplodeAll` and `SplitAll` on the changing lists, but does not claim that the asteroids removed are the asteroids hit.
- Simulation.OnShipUpdated: `asteroids.remove(it)` removes the first asteroid equal to the one at that index. The model removes the one at that index. These differ only when two asteroid objects are the same object.
- The partial state left behind when an exception interrupts an update (for example, asteroids already moved when the ship's network throws) is not modelled. A failing update returns only the error.
- Config: `asteroids`, `chunkCount` and `asteroidsToConsider` are naturals where Kotlin has `Int`. A negative `asteroids` or `chunkCount` only empties a `0 until n` loop, like 0. A negative `asteroidsToConsider` makes the padding loop of `vectorsToClosestAsteroids` (src/Simulation/Ship.kt:150-152) run forever, since the list only grows and never reaches a negative size. The model rules such configurations out by type and does not model that non-termination.
- Kotlin `Int`/`Long` overflow of counters (kills, seconds, `t` in the game loop) is not modelled, because the counters are unbounded naturals.
- GameShip.GetPoints: requires a non-zero scale. With scale 0 the source divides by zero and yields IEEE infinities, which reals cannot represent.
- NeuralNetwork.Activate: the weighted sum is exact over reals. The bias term `weights.last() * BIAS` is kept; since BIAS = 0.0 it always contributes 0.
- SimShip.ClosestUntaken: starting from `Double.MAX_VALUE`, an asteroid at a distance of at least `Double.MAX_VALUE` is never picked by the source. With reals every asteroid is pickable.

## Findings

| source | as written | input that shows it | evidently intended | confidence | as-written member | corrected member |
|---|---|---|---|---|---|---|
| src/Learning/Network.kt:37-59 | `setWeights` slices with inclusive `IntRange(start, start + in * out)`, each layer starting at the sum of (size - 1) of the layers before. Adjacent layers therefore share one flat index, and the last LAYER_COUNT - 1 weights are never read. | A default-topology network whose weights are all 0 except layer 0's bias slot, which is 1. After `setWeights(getCopyOfWeights())`, layer 1's first weight is 1 instead of 0. | each layer reads its own in * out + 1 weights right after the previous layer's, from an array of exactly sum in * out + LAYER_COUNT weights, so that get-then-set and set-then-get are identities | not executed | NeuralNetwork.GetThenSetIsNotIdentity | NeuralNetwork.SetExactAfterGet |

=== FILE: config.dfy ===
/**
 * The tuning record of the simulation package. Two declarations with the
 * same name and fields exist, with different defaults; both sets of defaults
 * are given here.
 */
module Config {

  datatype Configuration = Configuration(
    simTimeoutSeconds: real,
    activationResponse: real,
    asteroids: nat,
    maxChunkFactor: int,
    chunkCount: nat,
    maxAsteroids: int,
    reloadTimeMilliseconds: real,
    dragCoefficient: real,
    rotationalDragCoefficient: real,
    maxVel: real,
    maxRotVel: real,
    asteroidFitnessWeight: real,
    asteroidsToConsider: nat,
    bulletVel: real,
    bulletTimeoutMilliseconds: real)

  /** The default of maxAsteroids: asteroids + asteroids * chunkCount + asteroids * chunkCount * maxChunkFactor. */
  function DefaultMaxAsteroids(asteroids: int, chunkCount: int, maxChunkFactor: int): int {
    asteroids + (asteroids * chunkCount) + (asteroids * chunkCount * maxChunkFactor)
  }

  /** The defaults of the stand-alone Configuration declaration. */
  function Defaults(): Configuration {
    Configuration(60.0, 1.0, 5, 3, 3, DefaultMaxAsteroids(5, 3, 3),
                  333.0, 0.04, 0.85, 0.1, 15.0, 20.0, 5, 5.0, 2000.0)
  }

  /** The defaults of the Configuration declared next to the Simulation class. */
  function SimulationFileDefaults(): Configuration {
    Configuration(90.0, 1.0, 5, 3, 3, DefaultMaxAsteroids(5, 3, 3),
                  333.0, 0.025, 0.1, 0.1, 15.0, 20.0, 5, 5.0, 2000.0)
  }

  /**
   * A count read off the split rule: an asteroid of the given size, plus,
   * when a chunk one size up is still allowed, chunkCount chunks with their
   * own counts. Simulation.LineageFollowsChunks ties its recursion to the
   * chunks a split appends; it is the number of asteroids one asteroid
   * yields when every asteroid, chunks included, is shot once.
   */
  function Lineage(c: Configuration, size: int): nat
    decreases if size < c.maxChunkFactor then c.maxChunkFactor - size else 0
  {
    if size + 1 <= c.maxChunkFactor then 1 + c.chunkCount * Lineage(c, size + 1) else 1
  }

  /**
   * With three asteroid sizes, the default maxAsteroids counts every asteroid
   * an episode can produce exactly when chunkCount is 0 or 3, that is, when it
   * equals maxChunkFactor; both default sets are such a case. The field is
   * only declared: no code of the repository reads it, so this is a fact
   * about the default formula, not a bound the episode enforces.
   */
  lemma MaxAsteroidsCountsLineages(c: Configuration)
    requires c.maxChunkFactor == 3 && 0 < c.asteroids
    ensures DefaultMaxAsteroids(c.asteroids, c.chunkCount, c.maxChunkFactor) == c.asteroids * Lineage(c, 1)
        <==> c.chunkCount == 0 || c.chunkCount == 3
  {
    var a, n := c.asteroids, c.chunkCount;
    assert Lineage(c, 3) == 1;
    assert Lineage(c, 2) == 1 + n;
    assert Lineage(c, 1) == 1 + n * (1 + n) == 1 + n + n * n;
    assert DefaultMaxAsteroids(a, n, 3) == a * (1 + n + n * 3);
    CancelPositive(a, 1 + n + n * n, 1 + n + n * 3);
    SquareIsTriple(n);
  }

  lemma CancelPositive(a: int, x: int, y: int)
    requires 0 < a
    ensures a * x == a * y <==> x == y
  {
    if a * x == a * y {
      assert a * (x - y) == 0;
    }
  }

  lemma SquareIsTriple(n: int)
    ensures n * n == n * 3 <==> n == 0 || n == 3
  {
    assert n * n - n * 3 == n * (n - 3);
  }

  lemma DefaultsCountLineages()
    ensures Defaults().maxAsteroids == Defaults().asteroids * Lineage(Defaults(), 1) == 65
    ensures SimulationFileDefaults().maxAsteroids == SimulationFileDefaults().asteroids * Lineage(SimulationFileDefaults(), 1)
  {
    MaxAsteroidsCountsLineages(Defaults());
    MaxAsteroidsCountsLineages(SimulationFileDefaults());
  }
}

=== FILE: faults.dfy ===
/** Failure-compatible outcomes for the exceptions the modelled Kotlin code can throw. */
module Faults {

  /** The JVM exceptions the modelled code raises. */
  datatype Error =
    | IllegalState       // an IllegalStateException thrown on purpose
    | IndexOutOfBounds   // an array, list or slice index outside its bounds

  /** Either the value an operation returns or the exception it throws. */
  datatype Result<+T> = Ok(value: T) | Err(error: Error) {
    predicate IsFailure() {
      Err?
    }

    function PropagateFailure<U>(): Result<U>
      requires Err?
    {
      Err(error)
    }

    function Extract(): T
      requires Ok?
    {
      value
    }
  }

  /** Kotlin's nullable values. */
  datatype Option<+T> = None | Some(value: T)
}

=== FILE: game_asteroid.dfy ===
/**
 * An asteroid of the GameModel package: random heading, spin and speed
 * clamped at construction, a single scalar speed applied to both axes, and
 * wrap-around in the window.
 */
module GameAsteroid {
  import opened Physics

  datatype Asteroid = Asteroid(size: int, xPos: real, yPos: real, rot: real, vRot: real, vel: real)

  /** The three randomNetworkWeight() draws of the constructor, in order: rotation, spin, speed. */
  datatype Draw = Draw(rot: real, vRot: real, vel: real)

  /** Asteroid(): size 1 at the origin, each draw scaled and clamped. */
  function New(d: Draw): (a: Asteroid)
    ensures a.size == 1 && a.xPos == 0.0 && a.yPos == 0.0
    ensures -360.0 <= a.rot <= 360.0 && -2.5 <= a.vRot <= 2.5 && -2.5 <= a.vel <= 2.5
    ensures -1.0 <= d.rot <= 1.0 ==> a.rot == d.rot * 360.0
    ensures -1.0 <= d.vRot <= 1.0 ==> a.vRot == d.vRot * 2.5
    ensures -1.0 <= d.vel <= 1.0 ==> a.vel == d.vel * 2.5
  {
    Asteroid(1, 0.0, 0.0, Clamp(-360.0, 360.0, d.rot * 360.0), Clamp(-2.5, 2.5, d.vRot * 2.5), Clamp(-2.5, 2.5, d.vel * 2.5))
  }

  /** Asteroid(xPos, yPos): the same draws, then the given position. */
  function At(xPos: real, yPos: real, d: Draw): (a: Asteroid)
    ensures a.xPos == xPos && a.yPos == yPos
    ensures a == New(d).(xPos := xPos, yPos := yPos)
  {
    New(d).(xPos := xPos, yPos := yPos)
  }

  /** update: spin by vRot, move by vel along both axes, wrap into the window. */
  function Update(a: Asteroid): (r: Asteroid)
    ensures r.rot == a.rot + a.vRot
    ensures 0.0 <= r.xPos <= WIDTH && 0.0 <= r.yPos <= HEIGHT
    ensures 0.0 <= a.xPos + a.vel <= WIDTH ==> r.xPos == a.xPos + a.vel
    ensures 0.0 <= a.yPos + a.vel <= HEIGHT ==> r.yPos == a.yPos + a.vel
    ensures r == a.(rot := r.rot, xPos := r.xPos, yPos := r.yPos)
  {
    a.(rot := a.rot + a.vRot, xPos := Wrap(a.xPos + a.vel, WIDTH), yPos := Wrap(a.yPos + a.vel, HEIGHT))
  }

  /** Away from the edges an asteroid drifts along the diagonal: both coordinates change by the same amount. */
  lemma UpdateMovesDiagonally(a: Asteroid)
    requires 0.0 <= a.xPos + a.vel <= WIDTH && 0.0 <= a.yPos + a.vel <= HEIGHT
    ensures Update(a).xPos - a.xPos == Update(a).yPos - a.yPos == a.vel
  {
  }
}

=== FILE: game_loop.dfy ===
/**
 * The fixed-timestep loop of the GUI package ("Fix Your Timestep",
 * Gaffer on Games): frame time is clamped, added to an accumulator, and
 * the state is integrated in steps of DT until less than one step remains;
 * the remainder gives the blend factor for rendering. The state type and
 * its integrate and interpolate operations are parameters.
 */
module GameLoop {

  const MAX_ALLOWED_FRAME_TIME_MILLIS: int := 250
  const DT: int := 100

  datatype Loop<S> = Loop(t: int, currentTimeMillis: int, accumulator: real, previousState: S, currentState: S)

  /** The loop as first set up: no time elapsed, nothing accumulated, both states the base state. */
  function Init<S>(nowMillis: int, base: S): (l: Loop<S>)
    ensures l.t == 0 && l.accumulator == 0.0 && l.currentTimeMillis == nowMillis
    ensures l.previousState == base && l.currentState == base
  {
    Loop(0, nowMillis, 0.0, base, base)
  }

  /** The frame time: the clock difference, but never more than the maximum allowed. */
  function FrameTime(newTimeMillis: int, currentTimeMillis: int): (r: int)
    ensures r <= MAX_ALLOWED_FRAME_TIME_MILLIS
    ensures newTimeMillis - currentTimeMillis <= MAX_ALLOWED_FRAME_TIME_MILLIS ==> r == newTimeMillis - currentTimeMillis
    ensures newTimeMillis - currentTimeMillis > MAX_ALLOWED_FRAME_TIME_MILLIS ==> r == MAX_ALLOWED_FRAME_TIME_MILLIS
  {
    var frame := newTimeMillis - currentTimeMillis;
    if frame > MAX_ALLOWED_FRAME_TIME_MILLIS then MAX_ALLOWED_FRAME_TIME_MILLIS else frame
  }

  /** n integration steps from `s` at time t, each of length DT. */
  function Iterate<S>(integrate: (S, int, int) -> S, s: S, t: int, n: nat): S
    decreases n
  {
    if n == 0 then s else Iterate(integrate, integrate(s, t, DT), t + DT, n - 1)
  }

  /** One more step at the end of n steps. */
  lemma {:induction false} IterateOneMore<S>(integrate: (S, int, int) -> S, s: S, t: int, n: nat)
    ensures Iterate(integrate, s, t, n + 1) == integrate(Iterate(integrate, s, t, n), t + n * DT, DT)
    decreases n
  {
    if n > 0 {
      IterateOneMore(integrate, integrate(s, t, DT), t + DT, n - 1);
    }
  }

  /** How many whole steps fit in an accumulator: none below DT, otherwise the floor of the quotient. */
  function Steps(accumulator: real): (n: nat)
    ensures accumulator < DT as real ==> n == 0
    ensures DT as real <= accumulator ==> (n as real) * (DT as real) <= accumulator < (n as real + 1.0) * (DT as real) && 1 <= n
  {
    if accumulator < DT as real then 0 else (accumulator / DT as real).Floor
  }

  /**
   * One call of loop(): clamp the frame time, accumulate it, integrate
   * while a whole step remains, then interpolate for rendering without
   * touching the stored states. `rendered` is the state handed to render
   * and `alpha` its blend factor.
   */
  method Tick<S>(l: Loop<S>, newTimeMillis: int, integrate: (S, int, int) -> S, interpolate: (S, real, S) -> S)
    returns (r: Loop<S>, alpha: real, rendered: S)
    ensures var accumulated := l.accumulator + FrameTime(newTimeMillis, l.currentTimeMillis) as real;
      var steps := Steps(accumulated);
      && r.currentTimeMillis == newTimeMillis
      && r.t == l.t + steps * DT
      && r.accumulator == accumulated - (steps * DT) as real
      && r.accumulator < DT as real
      && (0.0 <= accumulated ==> 0.0 <= r.accumulator)
      && r.currentState == Iterate(integrate, l.currentState, l.t, steps)
      && (steps == 0 ==> r.previousState == l.previousState)
      && (1 <= steps ==> r.previousState == Iterate(integrate, l.currentState, l.t, steps - 1)
                         && r.currentState == integrate(r.previousState, r.t - DT, DT))
      && alpha == r.accumulator / DT as real
      && (0.0 <= accumulated ==> 0.0 <= alpha < 1.0)
      && rendered == interpolate(r.currentState, alpha, r.previousState)
  {
    var frame := FrameTime(newTimeMillis, l.currentTimeMillis);
    var accumulated := l.accumulator + frame as real;
    var accumulator := accumulated;
    var t := l.t;
    var previousState, currentState := l.previousState, l.currentState;
    var steps: nat := 0;
    while accumulator >= DT as real
      invariant accumulator == accumulated - (steps * DT) as real
      invariant t == l.t + steps * DT
      invariant 1 <= steps ==> 0.0 <= accumulator
      invariant currentState == Iterate(integrate, l.currentState, l.t, steps)
      invariant steps == 0 ==> previousState == l.previousState
      invariant 1 <= steps ==> previousState == Iterate(integrate, l.currentState, l.t, steps - 1)
      decreases accumulator.Floor
    {
      previousState := currentState;
      IterateOneMore(integrate, l.currentState, l.t, steps);
      currentState := integrate(currentState, t, DT);
      t := t + DT;
      accumulator := accumulator - DT as real;
      steps := steps + 1;
    }
    StepsCounted(accumulated, steps);
    if 1 <= steps {
      IterateOneMore(integrate, l.currentState, l.t, steps - 1);
    }
    r := Loop(t, newTimeMillis, accumulator, previousState, currentState);
    alpha := accumulator / DT as real;
    rendered := interpolate(currentState, alpha, previousState);
  }

  /** The loop runs exactly as many times as whole steps fit in what was accumulated. */
  lemma StepsCounted(accumulated: real, steps: nat)
    requires accumulated - (steps * DT) as real < DT as real
    requires 1 <= steps ==> 0.0 <= accumulated - (steps * DT) as real
    requires steps == 0 ==> accumulated < DT as real
    ensures Steps(accumulated) == steps
  {
    if 1 <= steps {
      var q := accumulated / DT as real;
      assert steps as real <= q < steps as real + 1.0;
    }
  }
}

=== FILE: game_ship.dfy ===
/**
 * The ship and bullets of the GameModel package, with fixed constants in
 * place of a configuration. Bullets are told apart by a serial number; the
 * reload timer is an explicit tick.
 */
module GameShip {
  import opened Physics

  const DRAG_COEFFICIENT: real := 0.01
  const ROTATIONAL_DRAG_COEFFICIENT: real := 0.1
  const MAX_ROT_VEL: real := 15.0
  const MAX_VEL: real := 0.1
  const BULLET_VEL: real := 10.0
  const RELOAD_TIME: nat := 300
  const BULLET_TIMEOUT: nat := 1000

  datatype Bullet = Bullet(xPos: real, yPos: real, rot: real, initialVelX: real, initialVelY: real, serial: nat)

  datatype Ship = Ship(xPos: real, yPos: real, vX: real, vY: real, vRot: real, rot: real,
                       canShoot: bool, bullets: seq<Bullet>, fired: nat)

  /** A new ship: at the origin, at rest, able to shoot, no bullets. */
  function New(): (s: Ship)
    ensures s.canShoot && s.bullets == [] && s.xPos == 0.0 && s.yPos == 0.0
  {
    Ship(0.0, 0.0, 0.0, 0.0, 0.0, 0.0, true, [], 0)
  }

  /** The fixed-rate reload timer: every tick the ship may shoot again. */
  function ReloadTick(s: Ship): (r: Ship)
    ensures r.canShoot && r == s.(canShoot := true)
  {
    s.(canShoot := true)
  }

  function SetPosition(s: Ship, x: real, y: real): (r: Ship)
    ensures r.xPos == x && r.yPos == y && r == s.(xPos := x, yPos := y)
  {
    s.(xPos := x, yPos := y)
  }

  /** Bullet `i` is the first one carrying `serial`. */
  predicate FirstWithSerial(bullets: seq<Bullet>, serial: nat, i: nat) {
    i < |bullets| && bullets[i].serial == serial && forall k :: 0 <= k < i ==> bullets[k].serial != serial
  }

  predicate HasSerial(bullets: seq<Bullet>, serial: nat) {
    exists k :: 0 <= k < |bullets| && bullets[k].serial == serial
  }

  function RemoveFirst(bullets: seq<Bullet>, serial: nat): seq<Bullet> {
    if |bullets| == 0 then []
    else if bullets[0].serial == serial then bullets[1..]
    else [bullets[0]] + RemoveFirst(bullets[1..], serial)
  }

  /** With no bullet carrying that serial, removal keeps every bullet. */
  lemma {:induction false} RemoveFirstWithoutMatch(bullets: seq<Bullet>, serial: nat)
    requires !HasSerial(bullets, serial)
    ensures RemoveFirst(bullets, serial) == bullets
    decreases |bullets|
  {
    if |bullets| > 0 {
      var tail := bullets[1..];
      assert !HasSerial(tail, serial) by {
        forall k | 0 <= k < |tail| ensures tail[k].serial != serial { assert tail[k] == bullets[k + 1]; }
      }
      RemoveFirstWithoutMatch(tail, serial);
    }
  }

  /** Removal drops exactly the first bullet with that serial and keeps the others in order. */
  lemma {:induction false} RemoveFirstAt(bullets: seq<Bullet>, serial: nat, i: nat)
    requires FirstWithSerial(bullets, serial, i)
    ensures RemoveFirst(bullets, serial) == bullets[..i] + bullets[i + 1..]
    decreases i
  {
    if i > 0 {
      var tail := bullets[1..];
      assert FirstWithSerial(tail, serial, i - 1) by {
        forall k | 0 <= k < i - 1 ensures tail[k].serial != serial { assert tail[k] == bullets[k + 1]; }
      }
      RemoveFirstAt(tail, serial, i - 1);
      assert bullets[..i] == [bullets[0]] + tail[..i - 1];
      assert bullets[i + 1..] == tail[i..];
    }
  }

  /** A serial that occurs has a first occurrence. */
  lemma {:induction false} FirstOccurrence(bullets: seq<Bullet>, serial: nat)
    requires HasSerial(bullets, serial)
    ensures exists i: nat :: FirstWithSerial(bullets, serial, i)
    decreases |bullets|
  {
    if bullets[0].serial != serial {
      var tail := bullets[1..];
      var k :| 0 <= k < |bullets| && bullets[k].serial == serial;
      assert tail[k - 1].serial == serial;
      FirstOccurrence(tail, serial);
      var j: nat :| FirstWithSerial(tail, serial, j);
      forall m | 0 < m < j + 1 ensures bullets[m].serial != serial { assert bullets[m] == tail[m - 1]; }
      assert FirstWithSerial(bullets, serial, j + 1);
    } else {
      assert FirstWithSerial(bullets, serial, 0);
    }
  }

  /** Only one bullet is the first with a given serial. */
  lemma FirstWithSerialIsUnique(bullets: seq<Bullet>, serial: nat, i: nat, j: nat)
    requires FirstWithSerial(bullets, serial, i) && FirstWithSerial(bullets, serial, j)
    ensures i == j
  {
  }

  /** What removal by serial does to a bullet list, gathered for TimedOut. */
  lemma RemoveFirstSpec(bullets: seq<Bullet>, serial: nat)
    ensures |RemoveFirst(bullets, serial)| == |bullets| - (if HasSerial(bullets, serial) then 1 else 0)
    ensures forall k :: 0 <= k < |RemoveFirst(bullets, serial)| ==> RemoveFirst(bullets, serial)[k] in bullets
    ensures forall i: nat :: FirstWithSerial(bullets, serial, i) ==> RemoveFirst(bullets, serial) == bullets[..i] + bullets[i + 1..]
    ensures !HasSerial(bullets, serial) ==> RemoveFirst(bullets, serial) == bullets
  {
    var r := RemoveFirst(bullets, serial);
    if HasSerial(bullets, serial) {
      FirstOccurrence(bullets, serial);
      var i: nat :| FirstWithSerial(bullets, serial, i);
      RemoveFirstAt(bullets, serial, i);
      forall j: nat | FirstWithSerial(bullets, serial, j) ensures r == bullets[..j] + bullets[j + 1..] {
        FirstWithSerialIsUnique(bullets, serial, i, j);
      }
      forall k | 0 <= k < |r| ensures r[k] in bullets {
        if k < i { assert r[k] == bullets[k]; } else { assert r[k] == bullets[k + 1]; }
      }
    } else {
      RemoveFirstWithoutMatch(bullets, serial);
    }
  }

  /** `bullets.remove(bullet)`: the first bullet with this identity goes, the rest stay in order. */
  function TimedOut(s: Ship, serial: nat): (r: Ship)
    ensures r == s.(bullets := r.bullets)
    ensures |r.bullets| == |s.bullets| - (if HasSerial(s.bullets, serial) then 1 else 0)
    ensures forall k :: 0 <= k < |r.bullets| ==> r.bullets[k] in s.bullets
    ensures forall i: nat :: FirstWithSerial(s.bullets, serial, i) ==> r.bullets == s.bullets[..i] + s.bullets[i + 1..]
    ensures !HasSerial(s.bullets, serial) ==> r == s
  {
    RemoveFirstSpec(s.bullets, serial);
    s.(bullets := RemoveFirst(s.bullets, serial))
  }

  /** When serials are distinct, a timed-out bullet leaves and no other bullet does. */
  lemma TimedOutRemovesExactlyThatBullet(s: Ship, serial: nat)
    requires forall i, j :: 0 <= i < j < |s.bullets| ==> s.bullets[i].serial != s.bullets[j].serial
    ensures forall k :: 0 <= k < |TimedOut(s, serial).bullets| ==> TimedOut(s, serial).bullets[k].serial != serial
    ensures forall b :: b in s.bullets && b.serial != serial ==> b in TimedOut(s, serial).bullets
  {
    var r := TimedOut(s, serial);
    if HasSerial(s.bullets, serial) {
      FirstOccurrence(s.bullets, serial);
      var i: nat :| FirstWithSerial(s.bullets, serial, i);
      forall k | 0 <= k < |r.bullets| ensures r.bullets[k].serial != serial {
        if k < i { assert r.bullets[k] == s.bullets[k]; } else { assert r.bullets[k] == s.bullets[k + 1]; }
      }
      forall b | b in s.bullets && b.serial != serial ensures b in r.bullets {
        var k :| 0 <= k < |s.bullets| && s.bullets[k] == b;
        if k < i { assert r.bullets[k] == b; } else { assert r.bullets[k - 1] == b; }
      }
    }
  }

  /**
   * update: clamp the torque into the spin and subtract rotational drag,
   * turn, clamp the thrust along the new heading into each velocity
   * component and subtract drag, move, wrap into the window; then, if
   * shooting and able to, fire a bullet from the new position and heading
   * carrying the new velocity.
   */
  function Update(s: Ship, torque: real, thrust: real, shooting: bool, trig: Trig): (r: Ship)
    ensures -MAX_ROT_VEL <= r.vRot + ROTATIONAL_DRAG_COEFFICIENT * s.vRot <= MAX_ROT_VEL
    ensures -MAX_VEL <= r.vX - s.vX + DRAG_COEFFICIENT * s.vX <= MAX_VEL
    ensures -MAX_VEL <= r.vY - s.vY + DRAG_COEFFICIENT * s.vY <= MAX_VEL
    ensures -MAX_ROT_VEL <= s.vRot + torque <= MAX_ROT_VEL ==>
      r.vRot == s.vRot + torque - ROTATIONAL_DRAG_COEFFICIENT * s.vRot
    ensures -MAX_VEL <= thrust * -trig.sinDeg(r.rot) <= MAX_VEL ==>
      r.vX == s.vX + thrust * -trig.sinDeg(r.rot) - DRAG_COEFFICIENT * s.vX
    ensures -MAX_VEL <= thrust * trig.cosDeg(r.rot) <= MAX_VEL ==>
      r.vY == s.vY + thrust * trig.cosDeg(r.rot) - DRAG_COEFFICIENT * s.vY
    ensures r.rot == s.rot + r.vRot
    ensures 0.0 <= r.xPos <= WIDTH && 0.0 <= r.yPos <= HEIGHT
    ensures 0.0 <= s.xPos + r.vX <= WIDTH ==> r.xPos == s.xPos + r.vX
    ensures 0.0 <= s.yPos + r.vY <= HEIGHT ==> r.yPos == s.yPos + r.vY
    ensures r.canShoot == (s.canShoot && !shooting)
    ensures shooting && s.canShoot ==>
      r.bullets == s.bullets + [Bullet(r.xPos, r.yPos, r.rot, r.vX, r.vY, s.fired)] && r.fired == s.fired + 1
    ensures !(shooting && s.canShoot) ==> r.bullets == s.bullets && r.fired == s.fired
  {
    var vRot := Clamp(-MAX_ROT_VEL, MAX_ROT_VEL, s.vRot + torque) - ROTATIONAL_DRAG_COEFFICIENT * s.vRot;
    var rot := s.rot + vRot;
    var vX := s.vX + Clamp(-MAX_VEL, MAX_VEL, thrust * -trig.sinDeg(rot)) - DRAG_COEFFICIENT * s.vX;
    var vY := s.vY + Clamp(-MAX_VEL, MAX_VEL, thrust * trig.cosDeg(rot)) - DRAG_COEFFICIENT * s.vY;
    var moved := s.(vRot := vRot, rot := rot, vX := vX, vY := vY,
                    xPos := Wrap(s.xPos + vX, WIDTH), yPos := Wrap(s.yPos + vY, HEIGHT));
    if shooting && s.canShoot then
      moved.(bullets := s.bullets + [Bullet(moved.xPos, moved.yPos, rot, vX, vY, s.fired)],
             canShoot := false, fired := s.fired + 1)
    else moved
  }

  /** A ship that just fired cannot fire again until the reload timer ticks. */
  lemma NoSecondShotBeforeReload(s: Ship, t1: real, f1: real, t2: real, f2: real, trig: Trig)
    requires s.canShoot
    ensures var once := Update(s, t1, f1, true, trig);
      |Update(once, t2, f2, true, trig).bullets| == |once.bullets| == |s.bullets| + 1
    ensures var once := Update(s, t1, f1, true, trig);
      |Update(ReloadTick(once), t2, f2, true, trig).bullets| == |s.bullets| + 2
  {
  }

  /**
   * Bullet.getPoints: advance by the initial velocity plus BULLET_VEL along
   * the heading, wrap into the window, and return the position scaled and
   * offset for drawing.
   */
  function GetPoints(b: Bullet, scale: int, xOrigin: real, yOrigin: real, trig: Trig): (r: (Bullet, seq<real>))
    requires scale != 0
    ensures 0.0 <= r.0.xPos <= WIDTH && 0.0 <= r.0.yPos <= HEIGHT
    ensures var step := b.xPos + b.initialVelX + BULLET_VEL * -trig.sinDeg(b.rot);
      0.0 <= step <= WIDTH ==> r.0.xPos == step
    ensures var step := b.yPos + b.initialVelY + BULLET_VEL * trig.cosDeg(b.rot);
      0.0 <= step <= HEIGHT ==> r.0.yPos == step
    ensures r.0 == b.(xPos := r.0.xPos, yPos := r.0.yPos)
    ensures |r.1| == 2
    ensures (r.1[0] - xOrigin) * (scale as real) == r.0.xPos && (r.1[1] - yOrigin) * (scale as real) == r.0.yPos
  {
    var x := Wrap(b.xPos + b.initialVelX + BULLET_VEL * -trig.sinDeg(b.rot), WIDTH);
    var y := Wrap(b.yPos + b.initialVelY + BULLET_VEL * trig.cosDeg(b.rot), HEIGHT);
    (b.(xPos := x, yPos := y), [x / scale as real + xOrigin, y / scale as real + yOrigin])
  }
}

=== FILE: game_simulation.dfy ===
/**
 * The GameModel simulation: a network steers the ship toward or away from
 * the asteroid nearest to it. The network is the `brain` parameter and
 * Math.random() draws are parameters.
 */
module GameSimulation {
  import opened Faults
  import opened Physics
  import GameAsteroid
  import GameShip

  datatype GameState = GameState(asteroids: seq<GameAsteroid.Asteroid>, ship: GameShip.Ship)

  /** A Math.random() pair for one starting position, and the asteroid's own draws. */
  datatype Placement = Placement(rx: real, ry: real, d: GameAsteroid.Draw)

  /** `Math.max(0, Math.min(extent, r * extent))`. */
  function PlaceOnAxis(r: real, extent: real): (p: real)
    requires 0.0 <= extent
    ensures 0.0 <= p <= extent
    ensures 0.0 <= r <= 1.0 ==> p == r * extent
  {
    if 0.0 <= r <= 1.0 then
      ClampOfFraction(r, extent);
      Clamp(0.0, extent, r * extent)
    else Clamp(0.0, extent, r * extent)
  }

  lemma ClampOfFraction(r: real, extent: real)
    requires 0.0 <= r <= 1.0 && 0.0 <= extent
    ensures Clamp(0.0, extent, r * extent) == r * extent
  {
    FractionWithin(r, extent);
  }

  /** The constructor: exactly three asteroids, each placed inside the window; a new ship. */
  function New(p0: Placement, p1: Placement, p2: Placement): (g: GameState)
    ensures |g.asteroids| == 3
    ensures forall k :: 0 <= k < 3 ==> 0.0 <= g.asteroids[k].xPos <= WIDTH && 0.0 <= g.asteroids[k].yPos <= HEIGHT
    ensures g.ship == GameShip.New()
  {
    GameState([Place(p0), Place(p1), Place(p2)], GameShip.New())
  }

  function Place(p: Placement): (a: GameAsteroid.Asteroid)
    ensures 0.0 <= a.xPos <= WIDTH && 0.0 <= a.yPos <= HEIGHT
  {
    GameAsteroid.At(PlaceOnAxis(p.rx, WIDTH), PlaceOnAxis(p.ry, HEIGHT), p.d)
  }

  /** The squared straight-line distance the argmin compares (no wrap-around here). */
  function SquaredDistance(ship: GameShip.Ship, a: GameAsteroid.Asteroid): real {
    var dx := Abs(ship.xPos - a.xPos);
    var dy := Abs(ship.yPos - a.yPos);
    dx * dx + dy * dy
  }

  /**
   * Asteroid k is the one nearestAsteroidToShip settles on: no farther from
   * the ship than any asteroid and strictly nearer than every one before it,
   * so the first of equally near asteroids.
   */
  ghost predicate IsFirstNearest(ship: GameShip.Ship, asteroids: seq<GameAsteroid.Asteroid>, k: nat) {
    && k < |asteroids|
    && (forall j :: 0 <= j < |asteroids| ==> SquaredDistance(ship, asteroids[k]) <= SquaredDistance(ship, asteroids[j]))
    && (forall j :: 0 <= j < k ==> SquaredDistance(ship, asteroids[k]) < SquaredDistance(ship, asteroids[j]))
  }

  /** At most one asteroid is the first nearest. */
  lemma FirstNearestIsUnique(ship: GameShip.Ship, asteroids: seq<GameAsteroid.Asteroid>, k: nat, k': nat)
    requires IsFirstNearest(ship, asteroids, k) && IsFirstNearest(ship, asteroids, k')
    ensures k == k'
  {
    if k < k' {
      LaterNearestExcludesEarlier(ship, asteroids, k, k');
    } else if k' < k {
      LaterNearestExcludesEarlier(ship, asteroids, k', k);
    }
  }

  /** When a later asteroid is the first nearest, no earlier one is. */
  lemma LaterNearestExcludesEarlier(ship: GameShip.Ship, asteroids: seq<GameAsteroid.Asteroid>, lo: nat, hi: nat)
    requires lo < hi && IsFirstNearest(ship, asteroids, hi)
    ensures !IsFirstNearest(ship, asteroids, lo)
  {
    assert SquaredDistance(ship, asteroids[hi]) < SquaredDistance(ship, asteroids[lo]);
  }

  /** A non-empty field always has a first nearest asteroid. */
  lemma {:induction false} FirstNearestExists(ship: GameShip.Ship, asteroids: seq<GameAsteroid.Asteroid>)
    requires |asteroids| > 0
    ensures exists k: nat :: IsFirstNearest(ship, asteroids, k)
    decreases |asteroids|
  {
    var n := |asteroids|;
    if n == 1 {
      assert IsFirstNearest(ship, asteroids, 0);
    } else {
      var front := asteroids[..n - 1];
      FirstNearestExists(ship, front);
      var k: nat :| IsFirstNearest(ship, front, k);
      assert forall j :: 0 <= j < n - 1 ==> front[j] == asteroids[j];
      if SquaredDistance(ship, asteroids[n - 1]) < SquaredDistance(ship, asteroids[k]) {
        assert IsFirstNearest(ship, asteroids, n - 1);
      } else {
        assert IsFirstNearest(ship, asteroids, k);
      }
    }
  }

  /**
   * nearestAsteroidToShip: the index of an asteroid at minimum distance,
   * the first one on ties; reading `asteroids[0]` of an empty list throws.
   */
  method NearestAsteroidToShip(ship: GameShip.Ship, asteroids: seq<GameAsteroid.Asteroid>) returns (r: Result<nat>)
    ensures r.Err? <==> |asteroids| == 0
    ensures r.Err? ==> r.error == IndexOutOfBounds
    ensures r.Ok? ==> IsFirstNearest(ship, asteroids, r.value)
  {
    var nearestIndex: nat := 0;
    var nearestDistance: Option<real> := None;
    var index := 0;
    while index < |asteroids|
      invariant index <= |asteroids|
      invariant nearestDistance.None? <==> index == 0
      invariant nearestDistance.None? ==> nearestIndex == 0
      invariant nearestDistance.Some? ==>
        && nearestIndex < index
        && nearestDistance.value == SquaredDistance(ship, asteroids[nearestIndex])
        && (forall k :: 0 <= k < index ==> nearestDistance.value <= SquaredDistance(ship, asteroids[k]))
        && (forall k :: 0 <= k < nearestIndex ==> nearestDistance.value < SquaredDistance(ship, asteroids[k]))
    {
      var distance := SquaredDistance(ship, asteroids[index]);
      if nearestDistance.None? || distance < nearestDistance.value {
        nearestDistance := Some(distance);
        nearestIndex := index;
      }
      index := index + 1;
    }
    if |asteroids| == 0 {
      return Err(IndexOutOfBounds);
    }
    return Ok(nearestIndex);
  }

  /** vectorBetweenShipAndAsteroid: [ship.x - a.x, ship.y - a.y]. */
  function VectorBetweenShipAndAsteroid(ship: GameShip.Ship, a: GameAsteroid.Asteroid): (v: seq<real>)
    ensures |v| == 2
    ensures a.xPos + v[0] == ship.xPos && a.yPos + v[1] == ship.yPos
    ensures v[0] * v[0] + v[1] * v[1] == SquaredDistance(ship, a)
  {
    [ship.xPos - a.xPos, ship.yPos - a.yPos]
  }

  /** The network's answer for asteroid k, when it has the three outputs update reads. */
  ghost predicate Answers(g: GameState, k: nat, brain: seq<real> -> Result<seq<real>>) {
    && k < |g.asteroids|
    && var o := brain(VectorBetweenShipAndAsteroid(g.ship, g.asteroids[k]));
       o.Ok? && |o.value| >= 3
  }

  /**
   * The ship was steered by the network's answer for asteroid k: torque and
   * thrust are the first two outputs unchanged and it shoots iff the third
   * is positive.
   */
  ghost predicate SteeredToward(g: GameState, k: nat, ship: GameShip.Ship, brain: seq<real> -> Result<seq<real>>, trig: Trig) {
    && Answers(g, k, brain)
    && var o := brain(VectorBetweenShipAndAsteroid(g.ship, g.asteroids[k])).value;
       ship == GameShip.Update(g.ship, o[0], o[1], o[2] > 0.0, trig)
  }

  /**
   * update: feed the vector to the nearest asteroid to the network, steer
   * the ship with the first two outputs as they are and shoot when the third
   * is positive, then move every asteroid. It fails on an empty field, on a
   * failing network, and on fewer than three outputs.
   */
  method Update(g: GameState, brain: seq<real> -> Result<seq<real>>, trig: Trig) returns (r: Result<GameState>)
    ensures |g.asteroids| == 0 ==> r == Err(IndexOutOfBounds)
    ensures forall k: nat :: IsFirstNearest(g.ship, g.asteroids, k) ==> (r.Ok? <==> Answers(g, k, brain))
    ensures forall k: nat :: IsFirstNearest(g.ship, g.asteroids, k) && r.Ok? ==> SteeredToward(g, k, r.value.ship, brain, trig)
    ensures forall k: nat :: IsFirstNearest(g.ship, g.asteroids, k) && r.Err? ==>
      var o := brain(VectorBetweenShipAndAsteroid(g.ship, g.asteroids[k]));
      r.error == (if o.Err? then o.error else IndexOutOfBounds)
    ensures r.Ok? ==> |r.value.asteroids| == |g.asteroids|
    ensures r.Ok? ==> forall k :: 0 <= k < |g.asteroids| ==> r.value.asteroids[k] == GameAsteroid.Update(g.asteroids[k])
  {
    var found := NearestAsteroidToShip(g.ship, g.asteroids);
    if found.Err? {
      return Err(found.error);
    }
    var nearest := found.value;
    forall k: nat | IsFirstNearest(g.ship, g.asteroids, k) ensures k == nearest {
      FirstNearestIsUnique(g.ship, g.asteroids, k, nearest);
    }
    var outputs := brain(VectorBetweenShipAndAsteroid(g.ship, g.asteroids[nearest]));
    if outputs.Err? {
      return Err(outputs.error);
    }
    var o := outputs.value;
    if |o| < 3 {
      return Err(IndexOutOfBounds);
    }
    var ship := GameShip.Update(g.ship, o[0], o[1], o[2] > 0.0, trig);
    var asteroids := seq(|g.asteroids|, k requires 0 <= k < |g.asteroids| => GameAsteroid.Update(g.asteroids[k]));
    r := Ok(GameState(asteroids, ship));
  }
}

=== FILE: genetics.dfy ===
/**
 * Roulette-wheel selection and the epoch loop of the genetic algorithm.
 * The random number generator, crossover and mutation are parameters:
 * crossover and mutation have no behaviour of their own in the source.
 */
module Genetics {
  import opened Faults
  import NeuralNetwork

  /** NetworkPopulationMember: the network it stands for and its fitness (0.0 when created). */
  datatype Member = Member(network: NeuralNetwork.Network, fitness: real)

  /** Sum of the fitness of the first n members. */
  function Prefix(population: seq<Member>, n: nat): real
    requires n <= |population|
  {
    if n == 0 then 0.0 else Prefix(population, n - 1) + population[n - 1].fitness
  }

  /** totalPopulationFitness. */
  function TotalFitness(population: seq<Member>): real {
    Prefix(population, |population|)
  }

  /** trackedFitness right after member k has been added to it. */
  function RunningFitness(population: seq<Member>, k: nat): real
    requires k < |population|
  {
    Prefix(population, k + 1)
  }

  /**
   * Member k is the one roulette selection returns for this slice point: the
   * first member whose running fitness exceeds the slice, or the last member
   * when no running fitness does.
   */
  ghost predicate IsRoulettePick(population: seq<Member>, slice: real, k: nat) {
    && k < |population|
    && (|| (RunningFitness(population, k) > slice
            && forall j :: 0 <= j < k ==> RunningFitness(population, j) <= slice)
        || (k == |population| - 1
            && forall j :: 0 <= j < |population| ==> RunningFitness(population, j) <= slice))
  }

  /**
   * roulletteSelection, returning the index of the chosen member. `random`
   * is the value nextRandomDouble() returns; the slice point is random times
   * the total fitness. On an empty population the final `population[size - 1]`
   * throws.
   */
  method RouletteSelection(population: seq<Member>, random: real) returns (pick: Result<nat>)
    ensures pick.Err? <==> |population| == 0
    ensures pick.Err? ==> pick.error == IndexOutOfBounds
    ensures pick.Ok? ==> IsRoulettePick(population, random * TotalFitness(population), pick.value)
  {
    var total := 0.0;
    var i := 0;
    while i < |population|
      invariant i <= |population| && total == Prefix(population, i)
    {
      total := total + population[i].fitness;
      i := i + 1;
    }
    var slice := random * total;
    var tracked := 0.0;
    i := 0;
    while i < |population|
      invariant i <= |population| && tracked == Prefix(population, i)
      invariant forall j :: 0 <= j < i ==> RunningFitness(population, j) <= slice
    {
      tracked := tracked + population[i].fitness;
      if tracked > slice {
        return Ok(i);
      }
      i := i + 1;
    }
    if |population| == 0 {
      return Err(IndexOutOfBounds);
    }
    return Ok(|population| - 1);
  }

  /** A slice point determines the pick: at most one member satisfies IsRoulettePick. */
  lemma RoulettePickIsUnique(population: seq<Member>, slice: real, k: nat, m: nat)
    requires IsRoulettePick(population, slice, k) && IsRoulettePick(population, slice, m)
    ensures k == m
  {
  }

  ghost predicate NonNegativeFitness(population: seq<Member>) {
    forall k :: 0 <= k < |population| ==> 0.0 <= population[k].fitness
  }

  lemma {:induction false} PrefixOfZeroFitness(population: seq<Member>, n: nat)
    requires n <= |population|
    requires forall k :: 0 <= k < |population| ==> population[k].fitness == 0.0
    ensures Prefix(population, n) == 0.0
  {
    if n > 0 {
      PrefixOfZeroFitness(population, n - 1);
    }
  }

  /** When every member has zero fitness, selection falls through to the last member, whatever the random value. */
  lemma ZeroFitnessPicksLast(population: seq<Member>, random: real, k: nat)
    requires forall j :: 0 <= j < |population| ==> population[j].fitness == 0.0
    requires IsRoulettePick(population, random * TotalFitness(population), k)
    ensures k == |population| - 1
  {
    PrefixOfZeroFitness(population, |population|);
    assert random * TotalFitness(population) == 0.0;
    PrefixOfZeroFitness(population, k + 1);
  }

  lemma ProductOfPositives(a: real, b: real)
    requires 0.0 < a && 0.0 < b
    ensures 0.0 < a * b
  {
  }

  /**
   * With non-negative fitness, a positive total and random in [0, 1), the
   * loop itself returns (the running fitness passes the slice point) and the
   * chosen member has positive fitness: a member of zero fitness is never
   * selected.
   */
  lemma PickHasPositiveFitness(population: seq<Member>, random: real, k: nat)
    requires NonNegativeFitness(population) && 0.0 < TotalFitness(population)
    requires 0.0 <= random < 1.0
    requires IsRoulettePick(population, random * TotalFitness(population), k)
    ensures RunningFitness(population, k) > random * TotalFitness(population)
    ensures population[k].fitness > 0.0
  {
    var total := TotalFitness(population);
    var slice := random * total;
    assert slice < total by {
      var rest := 1.0 - random;
      ProductOfPositives(rest, total);
      assert 0.0 < rest * total;
      assert rest * total == total - random * total;
      assert total - slice == rest * total;
    }
    assert 0.0 <= slice;
    assert RunningFitness(population, |population| - 1) == total;
    assert RunningFitness(population, k) > slice;
    if k > 0 {
      assert RunningFitness(population, k - 1) <= slice;
      assert RunningFitness(population, k) == RunningFitness(population, k - 1) + population[k].fitness;
    } else {
      assert Prefix(population, 0) == 0.0;
      assert RunningFitness(population, 0) == population[0].fitness;
    }
  }

  /**
   * Child i of an epoch: its parents are the roulette picks for the draws
   * randoms(2 i) (dad) and randoms(2 i + 1) (mum), and it is the mutated
   * crossover of the two.
   */
  ghost predicate Bred(population: seq<Member>, randoms: nat -> real,
                       crossover: (Member, Member) -> Member, mutate: Member -> Member,
                       i: nat, parents: (nat, nat), child: Member)
  {
    && IsRoulettePick(population, randoms(2 * i) * TotalFitness(population), parents.0)
    && IsRoulettePick(population, randoms(2 * i + 1) * TotalFitness(population), parents.1)
    && child == mutate(crossover(population[parents.0], population[parents.1]))
  }

  /**
   * epoch: fills a new population, as large as the current one, with mutated
   * children of two roulette-selected parents. The new population is never
   * stored, so the population the epoch leaves behind is the one it started
   * from.
   */
  method Epoch(population: seq<Member>, randoms: nat -> real,
               crossover: (Member, Member) -> Member, mutate: Member -> Member)
    returns (after: seq<Member>, offspring: seq<Member>, parents: seq<(nat, nat)>)
    ensures after == population
    ensures |offspring| == |parents| == |population|
    ensures forall i :: 0 <= i < |offspring| ==>
      Bred(population, randoms, crossover, mutate, i, parents[i], offspring[i])
  {
    offspring, parents := [], [];
    while |offspring| < |population|
      invariant |offspring| == |parents| <= |population|
      invariant forall i :: 0 <= i < |offspring| ==>
        Bred(population, randoms, crossover, mutate, i, parents[i], offspring[i])
      decreases |population| - |offspring|
    {
      var pair, child := BreedChild(population, randoms, crossover, mutate, |offspring|);
      BredExtends(population, randoms, crossover, mutate, parents, offspring, pair, child);
      offspring := offspring + [child];
      parents := parents + [pair];
    }
    after := population;
  }

  /** One pass of the epoch loop's body: select dad, then mum, then mutate their crossover. */
  method BreedChild(population: seq<Member>, randoms: nat -> real,
                    crossover: (Member, Member) -> Member, mutate: Member -> Member, n: nat)
    returns (pair: (nat, nat), child: Member)
    requires 0 < |population|
    ensures Bred(population, randoms, crossover, mutate, n, pair, child)
  {
    var dad := RouletteSelection(population, randoms(2 * n));
    var mum := RouletteSelection(population, randoms(2 * n + 1));
    pair := (dad.value, mum.value);
    child := mutate(crossover(population[pair.0], population[pair.1]));
  }

  lemma BredExtends(population: seq<Member>, randoms: nat -> real,
                    crossover: (Member, Member) -> Member, mutate: Member -> Member,
                    parents: seq<(nat, nat)>, offspring: seq<Member>, pair: (nat, nat), child: Member)
    requires |offspring| == |parents|
    requires forall i :: 0 <= i < |offspring| ==>
      Bred(population, randoms, crossover, mutate, i, parents[i], offspring[i])
    requires Bred(population, randoms, crossover, mutate, |offspring|, pair, child)
    ensures forall i :: 0 <= i < |offspring| + 1 ==>
      Bred(population, randoms, crossover, mutate, i, (parents + [pair])[i], (offspring + [child])[i])
  {
    forall i | 0 <= i < |offspring| + 1
      ensures Bred(population, randoms, crossover, mutate, i, (parents + [pair])[i], (offspring + [child])[i])
    {
      if i < |offspring| {
        assert (parents + [pair])[i] == parents[i] && (offspring + [child])[i] == offspring[i];
      }
    }
  }
}

=== FILE: network.dfy ===
/**
 * The feed-forward network of the learning package: how its layers are
 * shaped, how their weights are flattened into one array and sliced back,
 * and how one layer activates. The sigmoid is a parameter of the model.
 */
module NeuralNetwork {
  import opened Faults

  const LAYER_COUNT: nat := 3
  const OUTPUT_COUNT: nat := 3
  const BIAS: real := 0.0

  /** INPUT_COUNT: two inputs per asteroid the ship considers. */
  function InputCount(asteroidsToConsider: nat): nat {
    asteroidsToConsider * 2
  }

  /** HIDDEN_NEURON_COUNT = INPUT_COUNT + OUTPUT_COUNT / 2, where the integer division binds first. */
  function HiddenNeuronCount(inputCount: nat): nat {
    inputCount + OUTPUT_COUNT / 2
  }

  datatype Topology = Topology(layerCount: nat, inputCount: nat, hiddenCount: nat, outputCount: nat)

  /** The topology the file's constants describe, for a given number of sensed asteroids. */
  function DefaultTopology(asteroidsToConsider: nat): (t: Topology)
    ensures t.layerCount == 3 && t.outputCount == 3
    ensures t.inputCount == 2 * asteroidsToConsider
    ensures t.hiddenCount == t.inputCount + 1
  {
    var input := InputCount(asteroidsToConsider);
    Topology(LAYER_COUNT, input, HiddenNeuronCount(input), OUTPUT_COUNT)
  }

  /** (inputSize, outputSize) of layer k: the `when (layer)` dispatch of the constructor. */
  function LayerShape(t: Topology, k: nat): (nat, nat) {
    if k == 0 then (t.inputCount, t.hiddenCount)
    else if k == t.layerCount - 1 then (if t.layerCount == 2 then t.inputCount else t.hiddenCount, t.outputCount)
    else (t.hiddenCount, t.hiddenCount)
  }

  /**
   * inputs * outputs, counted one input at a time; keeping the product
   * behind a recursive definition keeps the layout proofs linear.
   */
  function Connections(inputs: nat, outputs: nat): nat {
    if inputs == 0 then 0 else Connections(inputs - 1, outputs) + outputs
  }

  lemma {:induction false} ConnectionsIsProduct(inputs: nat, outputs: nat)
    ensures Connections(inputs, outputs) == inputs * outputs
  {
    if inputs > 0 {
      ConnectionsIsProduct(inputs - 1, outputs);
    }
  }

  /** Number of connection weights of layer k, without its bias slot. */
  function Span(t: Topology, k: nat): nat {
    Connections(LayerShape(t, k).0, LayerShape(t, k).1)
  }

  /** Sum of the spans of the layers before layer k. */
  function Start(t: Topology, k: nat): nat {
    if k == 0 then 0 else Start(t, k - 1) + Span(t, k - 1)
  }

  lemma {:induction false} StartMonotone(t: Topology, j: nat, k: nat)
    requires j <= k
    ensures Start(t, j) <= Start(t, k)
    decreases k
  {
    if j < k {
      StartMonotone(t, j, k - 1);
    }
  }

  datatype Layer = Layer(inputSize: nat, outputSize: nat, weights: seq<real>)

  datatype Network = Network(layers: seq<Layer>)

  /** Layer l has the shape the topology gives layer k, plus one bias slot. */
  ghost predicate Shaped(t: Topology, k: nat, l: Layer) {
    && l.inputSize == LayerShape(t, k).0
    && l.outputSize == LayerShape(t, k).1
    && |l.weights| == Span(t, k) + 1
  }

  ghost predicate WellShaped(t: Topology, n: Network) {
    && |n.layers| == t.layerCount
    && forall k :: 0 <= k < |n.layers| ==> Shaped(t, k, n.layers[k])
  }

  /* ---------------------------------------------------------------------- */
  /* Construction                                                            */
  /* ---------------------------------------------------------------------- */

  /** Layer k as the Layer constructor's default argument fills it: one draw per slot. */
  function FreshLayer(inputSize: nat, outputSize: nat, k: nat, draw: (nat, nat) -> real): Layer {
    Layer(inputSize, outputSize, seq(Connections(inputSize, outputSize) + 1, i requires 0 <= i => draw(k, i)))
  }

  /**
   * The default constructor. `draw(k, i)` stands for the i-th
   * `randomNetworkWeight()` drawn for layer k.
   */
  method NewNetwork(t: Topology, draw: (nat, nat) -> real) returns (n: Network)
    ensures |n.layers| == t.layerCount
    ensures 1 <= t.layerCount ==>
      n.layers[0].inputSize == t.inputCount && n.layers[0].outputSize == t.hiddenCount
    ensures forall k :: 0 < k < t.layerCount - 1 ==>
      n.layers[k].inputSize == t.hiddenCount && n.layers[k].outputSize == t.hiddenCount
    ensures 2 <= t.layerCount ==>
      && n.layers[t.layerCount - 1].inputSize == (if t.layerCount == 2 then t.inputCount else t.hiddenCount)
      && n.layers[t.layerCount - 1].outputSize == t.outputCount
    ensures forall k :: 0 <= k < |n.layers| ==>
      |n.layers[k].weights| == Connections(n.layers[k].inputSize, n.layers[k].outputSize) + 1
    ensures forall k, i :: 0 <= k < |n.layers| && 0 <= i < |n.layers[k].weights| ==>
      n.layers[k].weights[i] == draw(k, i)
    ensures WellShaped(t, n)
  {
    var layers: seq<Layer> := [];
    var layer: nat := 0;
    while layer < t.layerCount
      invariant layer <= t.layerCount && |layers| == layer
      invariant forall k :: 0 <= k < layer ==> Shaped(t, k, layers[k])
      invariant forall k, i :: 0 <= k < layer && 0 <= i < |layers[k].weights| ==>
        layers[k].weights[i] == draw(k, i)
    {
      var l: Layer;
      if layer == 0 {
        l := FreshLayer(t.inputCount, t.hiddenCount, layer, draw);
      } else if layer == t.layerCount - 1 {
        l := FreshLayer(if t.layerCount == 2 then t.inputCount else t.hiddenCount, t.outputCount, layer, draw);
      } else {
        l := FreshLayer(t.hiddenCount, t.hiddenCount, layer, draw);
      }
      layers := layers + [l];
      layer := layer + 1;
    }
    n := Network(layers);
  }

  /* ---------------------------------------------------------------------- */
  /* getCopyOfWeights                                                        */
  /* ---------------------------------------------------------------------- */

  /** Number of weights held by all the given layers. */
  function WeightTotal(layers: seq<Layer>): nat {
    if |layers| == 0 then 0 else WeightTotal(layers[..|layers| - 1]) + |layers[|layers| - 1].weights|
  }

  /** getCopyOfWeights: every layer's weights appended in layer order into a new array. */
  function CopyOfWeights(layers: seq<Layer>): (w: seq<real>)
    ensures |w| == WeightTotal(layers)
  {
    if |layers| == 0 then [] else CopyOfWeights(layers[..|layers| - 1]) + layers[|layers| - 1].weights
  }

  /** Layer k's weights sit, in order, right after the weights of the layers before it. */
  lemma {:induction false} CopyOfWeightsPlacesEachLayer(layers: seq<Layer>, k: nat)
    requires k < |layers|
    ensures WeightTotal(layers[..k + 1]) == WeightTotal(layers[..k]) + |layers[k].weights|
    ensures WeightTotal(layers[..k + 1]) <= WeightTotal(layers)
    ensures CopyOfWeights(layers)[WeightTotal(layers[..k])..WeightTotal(layers[..k + 1])] == layers[k].weights
    decreases |layers|
  {
    var last := |layers| - 1;
    assert layers[..k + 1][..k] == layers[..k];
    if k == last {
      assert layers[..k + 1] == layers;
    } else {
      var front := layers[..last];
      assert front[..k] == layers[..k] && front[..k + 1] == layers[..k + 1];
      CopyOfWeightsPlacesEachLayer(front, k);
      assert CopyOfWeights(layers) == CopyOfWeights(front) + layers[last].weights;
      SliceOfFront(CopyOfWeights(front), layers[last].weights, WeightTotal(layers[..k]), WeightTotal(layers[..k + 1]));
    }
  }

  lemma SliceOfFront<T>(u: seq<T>, v: seq<T>, a: nat, b: nat)
    requires a <= b <= |u|
    ensures (u + v)[a..b] == u[a..b]
  {
  }

  /** In a well-shaped network the layers before layer k hold Start(t, k) + k weights. */
  lemma {:induction false} ShapedPrefixWeightTotal(t: Topology, n: Network, k: nat)
    requires WellShaped(t, n) && k <= t.layerCount
    ensures WeightTotal(n.layers[..k]) == Start(t, k) + k
  {
    if k > 0 {
      ShapedPrefixWeightTotal(t, n, k - 1);
      assert n.layers[..k][..k - 1] == n.layers[..k - 1];
    }
  }

  /** getCopyOfWeights of a well-shaped network has one weight per connection plus one bias per layer. */
  lemma ShapedWeightCount(t: Topology, n: Network)
    requires WellShaped(t, n)
    ensures |CopyOfWeights(n.layers)| == Start(t, t.layerCount) + t.layerCount
  {
    ShapedPrefixWeightTotal(t, n, t.layerCount);
    assert n.layers[..t.layerCount] == n.layers;
  }

  /* ---------------------------------------------------------------------- */
  /* setWeights, as written                                                  */
  /* ---------------------------------------------------------------------- */

  /** `layers.sumBy { it.weights.size - 1 }`. */
  function SizesLessOne(layers: seq<Layer>): int {
    if |layers| == 0 then 0 else SizesLessOne(layers[..|layers| - 1]) + |layers[|layers| - 1].weights| - 1
  }

  /** Input size, output size and inclusive end index of the slice for `layer`, as each `when` branch computes them. */
  function SliceBounds(t: Topology, layer: nat, startIndex: int): (nat, nat, int) {
    if layer == 0 then
      (t.inputCount, t.hiddenCount, Connections(t.inputCount, t.hiddenCount))
    else if layer == t.layerCount - 1 then
      if t.layerCount == 2 then (t.inputCount, t.outputCount, startIndex + Connections(t.inputCount, t.outputCount))
      else (t.hiddenCount, t.outputCount, startIndex + Connections(t.hiddenCount, t.outputCount))
    else
      (t.hiddenCount, t.hiddenCount, startIndex + Connections(t.hiddenCount, t.hiddenCount))
  }

  /** The k-th slice taken from w: inclusive IntRange(start, start + span), so span + 1 weights. */
  function Window(w: seq<real>, from: nat, count: nat): seq<real> {
    if from + count <= |w| then w[from..from + count] else []
  }

  /** Layer l is layer j as setWeights rebuilds it: the topology's shape and the window at Start(t, j). */
  ghost predicate SlicedLayer(t: Topology, w: seq<real>, j: nat, l: Layer) {
    && Shaped(t, j, l)
    && l.weights == Window(w, Start(t, j), Span(t, j) + 1)
  }

  /** Layer k as setWeights rebuilds it: the topology's shape, and Span + 1 weights from Start(t, k) on. */
  function SlicedLayerAt(t: Topology, w: seq<real>, k: nat): Layer {
    Layer(LayerShape(t, k).0, LayerShape(t, k).1, Window(w, Start(t, k), Span(t, k) + 1))
  }

  /** The network setWeights(w) builds when no slice overruns w. */
  function SlicedNetwork(t: Topology, w: seq<real>): Network {
    Network(seq(t.layerCount, k requires 0 <= k => SlicedLayerAt(t, w, k)))
  }

  /** When the loop's slice for `layer` fits, it is exactly layer `layer` of the closed form. */
  lemma SliceStepInBounds(t: Topology, w: seq<real>, built: seq<Layer>, layer: nat)
    requires layer < t.layerCount && |built| == layer
    requires forall j :: 0 <= j < layer ==> SlicedLayer(t, w, j, built[j])
    requires var startIndex := if layer == 0 then 0 else SizesLessOne(built);
      0 <= startIndex <= SliceBounds(t, layer, startIndex).2 < |w|
    ensures Start(t, layer + 1) < |w|
    ensures var startIndex := if layer == 0 then 0 else SizesLessOne(built);
      var bounds := SliceBounds(t, layer, startIndex);
      SlicedLayer(t, w, layer, Layer(bounds.0, bounds.1, w[startIndex..bounds.2 + 1]))
  {
    SizesLessOneOfSlices(t, w, built, layer);
  }

  /** When the loop's slice for `layer` does not fit, Start(t, layer + 1) is past the end of w. */
  lemma SliceStepOutOfBounds(t: Topology, w: seq<real>, built: seq<Layer>, layer: nat)
    requires layer < t.layerCount && |built| == layer
    requires forall j :: 0 <= j < layer ==> SlicedLayer(t, w, j, built[j])
    requires var startIndex := if layer == 0 then 0 else SizesLessOne(built);
      !(0 <= startIndex <= SliceBounds(t, layer, startIndex).2 < |w|)
    ensures |w| <= Start(t, layer + 1)
  {
    SizesLessOneOfSlices(t, w, built, layer);
  }

  /** Each rebuilt layer holds Span + 1 weights, so summing size - 1 over them gives Start. */
  lemma {:induction false} SizesLessOneOfSlices(t: Topology, w: seq<real>, built: seq<Layer>, k: nat)
    requires k <= t.layerCount && |built| == k
    requires forall j :: 0 <= j < k ==> SlicedLayer(t, w, j, built[j])
    ensures SizesLessOne(built) == Start(t, k)
  {
    if k > 0 {
      var front := built[..k - 1];
      SizesLessOneOfSlices(t, w, front, k - 1);
      assert built[..|built| - 1] == front;
    }
  }

  /**
   * setWeights: rebuilds every layer from an inclusive slice of the flat
   * array, the first slice running from 0 and each later one from the sum of
   * (size - 1) over the layers already rebuilt. Fails with the exception
   * sliceArray throws once a slice runs past the end of w.
   */
  method SetWeights(t: Topology, w: seq<real>) returns (r: Result<Network>)
    ensures r.Ok? <==> t.layerCount == 0 || Start(t, t.layerCount) < |w|
    ensures r.Err? ==> r.error == IndexOutOfBounds
    ensures r.Ok? ==> r.value == SlicedNetwork(t, w)
    ensures r.Ok? ==> WellShaped(t, r.value)
    ensures r.Ok? ==> |CopyOfWeights(r.value.layers)| == Start(t, t.layerCount) + t.layerCount
  {
    var layers: seq<Layer> := [];
    var layer: nat := 0;
    while layer < t.layerCount
      invariant layer <= t.layerCount && |layers| == layer
      invariant layer == 0 || Start(t, layer) < |w|
      invariant forall j :: 0 <= j < layer ==> SlicedLayer(t, w, j, layers[j])
    {
      var next := SliceNext(t, w, layers, layer);
      if next.None? {
        StartMonotone(t, layer + 1, t.layerCount);
        return Err(IndexOutOfBounds);
      }
      layers := layers + [next.value];
      layer := layer + 1;
    }
    SlicedNetworkIsShaped(t, w, layers);
    r := Ok(Network(layers));
  }

  /**
   * One pass of the setWeights loop: the slice for `layer` starts at the
   * sum of (size - 1) over the layers already rebuilt and ends where the
   * layer's `when` branch says; none when it runs past the end of w.
   */
  method SliceNext(t: Topology, w: seq<real>, layers: seq<Layer>, layer: nat) returns (next: Option<Layer>)
    requires layer < t.layerCount && |layers| == layer
    requires forall j :: 0 <= j < layer ==> SlicedLayer(t, w, j, layers[j])
    ensures next.Some? <==> Start(t, layer + 1) < |w|
    ensures next.Some? ==> SlicedLayer(t, w, layer, next.value)
  {
    var startIndex := if layer == 0 then 0 else SizesLessOne(layers);
    var bounds := SliceBounds(t, layer, startIndex);
    if !(0 <= startIndex <= bounds.2 < |w|) {
      SliceStepOutOfBounds(t, w, layers, layer);
      return None;
    }
    SliceStepInBounds(t, w, layers, layer);
    next := Some(Layer(bounds.0, bounds.1, w[startIndex..bounds.2 + 1]));
  }

  lemma SlicedNetworkIsShaped(t: Topology, w: seq<real>, layers: seq<Layer>)
    requires |layers| == t.layerCount && forall j :: 0 <= j < |layers| ==> SlicedLayer(t, w, j, layers[j])
    ensures Network(layers) == SlicedNetwork(t, w)
    ensures WellShaped(t, Network(layers))
    ensures |CopyOfWeights(layers)| == Start(t, t.layerCount) + t.layerCount
  {
    assert WellShaped(t, Network(layers));
    ShapedWeightCount(t, Network(layers));
    assert layers == SlicedNetwork(t, w).layers;
  }

  /** Adjacent layers rebuilt by setWeights share one flat index, Start(t, k + 1): the last weight of one is the first of the next. */
  lemma AdjacentLayersShareAWeight(t: Topology, w: seq<real>, k: nat)
    requires Start(t, t.layerCount) < |w| && k + 1 < t.layerCount
    ensures var ls := SlicedNetwork(t, w).layers;
      && |ls[k].weights| == Span(t, k) + 1 && |ls[k + 1].weights| == Span(t, k + 1) + 1
      && ls[k].weights[Span(t, k)] == ls[k + 1].weights[0] == w[Start(t, k + 1)]
  {
    var ls := SlicedNetwork(t, w).layers;
    var a, b := Start(t, k), Start(t, k + 1);
    assert b == a + Span(t, k);
    StartMonotone(t, k + 2, t.layerCount);
    assert b + Span(t, k + 1) + 1 <= |w|;
    assert ls[k].weights == w[a..b + 1];
    assert ls[k + 1].weights == w[b..b + Span(t, k + 1) + 1];
  }

  /** Feeding getCopyOfWeights back into setWeights succeeds, and gives layer 1 the bias weight of layer 0 as its first weight. */
  lemma GetThenSetShiftsSecondLayer(t: Topology, n: Network)
    requires WellShaped(t, n) && 2 <= t.layerCount
    ensures Start(t, t.layerCount) < |CopyOfWeights(n.layers)|
    ensures var ls := SlicedNetwork(t, CopyOfWeights(n.layers)).layers;
      |ls[1].weights| > 0 && ls[1].weights[0] == n.layers[0].weights[Span(t, 0)]
  {
    var w := CopyOfWeights(n.layers);
    ShapedWeightCount(t, n);
    StartMonotone(t, 2, t.layerCount);
    CopyOfWeightsPlacesEachLayer(n.layers, 0);
    assert n.layers[..0] == [];
    assert n.layers[..1] == [n.layers[0]];
    assert w[0..Span(t, 0) + 1] == n.layers[0].weights;
    var ls := SlicedNetwork(t, w).layers;
    assert Start(t, 1) == Span(t, 0);
    assert ls[1].weights == w[Span(t, 0)..Start(t, 2) + 1];
  }

  /** A well-shaped network whose weights are all 0.0 except the bias slot of layer 0, which is 1.0. */
  function BiasMarkedNetwork(t: Topology): Network {
    Network(seq(t.layerCount, k requires 0 <= k =>
      Layer(LayerShape(t, k).0, LayerShape(t, k).1,
            seq(Span(t, k) + 1, i => if k == 0 && i == Span(t, 0) then 1.0 else 0.0))))
  }

  /** Counterexample: on the default topology, get-then-set does not give the network back. */
  lemma GetThenSetIsNotIdentity(asteroidsToConsider: nat)
    ensures var t := DefaultTopology(asteroidsToConsider);
      && WellShaped(t, BiasMarkedNetwork(t))
      && Start(t, t.layerCount) < |CopyOfWeights(BiasMarkedNetwork(t).layers)|
      && SlicedNetwork(t, CopyOfWeights(BiasMarkedNetwork(t).layers)) != BiasMarkedNetwork(t)
  {
    var t := DefaultTopology(asteroidsToConsider);
    var n := BiasMarkedNetwork(t);
    assert WellShaped(t, n);
    GetThenSetShiftsSecondLayer(t, n);
    assert n.layers[1].weights[0] == 0.0;
  }

  /* ---------------------------------------------------------------------- */
  /* setWeights, corrected: each layer keeps its own bias slot               */
  /* ---------------------------------------------------------------------- */

  /**
   * The evidently intended setWeights: the flat array must have exactly one
   * weight per slot, and layer k reads its Span + 1 weights starting at
   * Start(t, k) + k, right after the previous layer's bias slot.
   */
  function SetWeightsExact(t: Topology, w: seq<real>): (r: Result<Network>)
    ensures r.Ok? <==> |w| == Start(t, t.layerCount) + t.layerCount
    ensures r.Ok? ==> WellShaped(t, r.value)
  {
    if |w| != Start(t, t.layerCount) + t.layerCount then Err(IllegalState)
    else Ok(Network(seq(t.layerCount, k requires 0 <= k < t.layerCount => ExactLayer(t, w, k))))
  }

  /** Layer k of setWeightsExact: its Span + 1 weights start right after the bias slot of layer k - 1. */
  function ExactLayer(t: Topology, w: seq<real>, k: nat): (l: Layer)
    requires |w| == Start(t, t.layerCount) + t.layerCount && k < t.layerCount
    ensures Shaped(t, k, l)
  {
    StartMonotone(t, k + 1, t.layerCount);
    Layer(LayerShape(t, k).0, LayerShape(t, k).1, w[Start(t, k) + k..Start(t, k + 1) + k + 1])
  }

  /** setWeightsExact(getCopyOfWeights()) gives back the same network. */
  lemma SetExactAfterGet(t: Topology, n: Network)
    requires WellShaped(t, n)
    ensures SetWeightsExact(t, CopyOfWeights(n.layers)) == Ok(n)
  {
    var w := CopyOfWeights(n.layers);
    ShapedWeightCount(t, n);
    var m := SetWeightsExact(t, w).value;
    forall k | 0 <= k < t.layerCount
      ensures m.layers[k] == n.layers[k]
    {
      ExactLayerOfCopy(t, n, k);
    }
    assert m.layers == n.layers;
  }

  /** Layer k of setWeightsExact(getCopyOfWeights()) is layer k of the network. */
  lemma ExactLayerOfCopy(t: Topology, n: Network, k: nat)
    requires WellShaped(t, n) && k < t.layerCount
    requires |CopyOfWeights(n.layers)| == Start(t, t.layerCount) + t.layerCount
    ensures ExactLayer(t, CopyOfWeights(n.layers), k) == n.layers[k]
  {
    var w := CopyOfWeights(n.layers);
    var l := n.layers[k];
    assert Shaped(t, k, l);
    CopyOfWeightsPlacesEachLayer(n.layers, k);
    ShapedPrefixWeightTotal(t, n, k);
    ShapedPrefixWeightTotal(t, n, k + 1);
    assert w[Start(t, k) + k..Start(t, k + 1) + k + 1] == l.weights;
    ExactLayerWeights(t, w, k);
    var e := ExactLayer(t, w, k);
    assert e.inputSize == l.inputSize && e.outputSize == l.outputSize && e.weights == l.weights;
  }

  /** getCopyOfWeights after setWeightsExact(w) gives back w. */
  lemma GetAfterSetExact(t: Topology, w: seq<real>)
    requires SetWeightsExact(t, w).Ok?
    ensures CopyOfWeights(SetWeightsExact(t, w).value.layers) == w
  {
    var layers := SetWeightsExact(t, w).value.layers;
    var cuts := ExactCuts(t);
    forall j | 0 <= j < |layers|
      ensures Windowed(layers, w, cuts, j)
    {
      ExactLayerWindowed(t, w, j);
    }
    CopyOfConsecutiveWindows(layers, w, cuts, |layers|);
    assert layers[..|layers|] == layers;
  }

  /** The offsets at which setWeightsExact cuts the flat array: layer j starts at Start(t, j) + j. */
  function ExactCuts(t: Topology): (cuts: seq<nat>)
    ensures |cuts| == t.layerCount + 1
    ensures forall j :: 0 <= j <= t.layerCount ==> cuts[j] == Start(t, j) + j
  {
    seq(t.layerCount + 1, j requires 0 <= j => Start(t, j) + j)
  }

  /** Layer j of setWeightsExact(w) is the window of w between its two cuts. */
  lemma ExactLayerWindowed(t: Topology, w: seq<real>, j: nat)
    requires SetWeightsExact(t, w).Ok? && j < t.layerCount
    ensures Windowed(SetWeightsExact(t, w).value.layers, w, ExactCuts(t), j)
  {
    ExactLayerWeights(t, w, j);
  }

  /** Layer j holds the window of w between cuts[j] and cuts[j + 1]. */
  ghost predicate Windowed(layers: seq<Layer>, w: seq<real>, cuts: seq<nat>, j: nat)
    requires j < |layers| && |cuts| == |layers| + 1
  {
    cuts[j] <= cuts[j + 1] <= |w| && layers[j].weights == w[cuts[j]..cuts[j + 1]]
  }

  /** Layers whose weights are consecutive windows of w, starting at 0, flatten back to a prefix of w. */
  lemma {:induction false} CopyOfConsecutiveWindows(layers: seq<Layer>, w: seq<real>, cuts: seq<nat>, k: nat)
    requires k <= |layers| && |cuts| == |layers| + 1 && cuts[0] == 0
    requires forall j :: 0 <= j < |layers| ==> Windowed(layers, w, cuts, j)
    ensures cuts[k] <= |w|
    ensures CopyOfWeights(layers[..k]) == w[..cuts[k]]
  {
    if k > 0 {
      CopyOfConsecutiveWindows(layers, w, cuts, k - 1);
      assert Windowed(layers, w, cuts, k - 1);
      assert layers[..k][..k - 1] == layers[..k - 1];
      assert CopyOfWeights(layers[..k]) == CopyOfWeights(layers[..k - 1]) + layers[k - 1].weights;
      SlicesJoin(w, cuts[k - 1], cuts[k]);
    }
  }

  lemma ExactLayerWeights(t: Topology, w: seq<real>, k: nat)
    requires |w| == Start(t, t.layerCount) + t.layerCount && k < t.layerCount
    ensures Start(t, k) + k <= Start(t, k + 1) + k + 1 <= |w|
    ensures ExactLayer(t, w, k).weights == w[Start(t, k) + k..Start(t, k + 1) + k + 1]
  {
    StartMonotone(t, k + 1, t.layerCount);
  }

  lemma SlicesJoin<T>(s: seq<T>, p: nat, q: nat)
    requires p <= q <= |s|
    ensures s[..q] == s[..p] + s[p..q]
  {
  }

  /* ---------------------------------------------------------------------- */
  /* Layer.activate and update                                               */
  /* ---------------------------------------------------------------------- */

  /** The weight read for (input, output): `weights[input * output + 1]`. */
  function WeightIndex(input: nat, output: nat): nat {
    input * output + 1
  }

  /** Every index the two loops of activate read lies inside the weights. */
  predicate ReadsInBounds(l: Layer, inputCount: nat) {
    forall i, o :: 0 <= i < inputCount && 0 <= o < l.outputSize ==> WeightIndex(i, o) < |l.weights|
  }

  lemma MulMonotone(a: nat, b: nat, c: nat, d: nat)
    requires a <= c && b <= d
    ensures a * b <= c * d
  {
    assert a * b <= c * b;
    assert c * b <= c * d;
  }

  /** The reads are in bounds exactly when the last one, for input n-1 and output outputSize-1, is. */
  lemma LastReadDecidesBounds(l: Layer, n: nat)
    requires 0 < n && 0 < l.outputSize
    ensures ReadsInBounds(l, n) <==> WeightIndex(n - 1, l.outputSize - 1) < |l.weights|
  {
    forall i, o | 0 <= i < n && 0 <= o < l.outputSize
      ensures WeightIndex(i, o) <= WeightIndex(n - 1, l.outputSize - 1)
    {
      MulMonotone(i, o, n - 1, l.outputSize - 1);
    }
  }

  /** The weighted sum `netInput` for one output over the first n inputs. */
  function NetInput(w: seq<real>, inputs: seq<real>, output: nat, n: nat): real
    requires n <= |inputs|
    requires forall i :: 0 <= i < n ==> WeightIndex(i, output) < |w|
  {
    if n == 0 then 0.0 else NetInput(w, inputs, output, n - 1) + w[WeightIndex(n - 1, output)] * inputs[n - 1]
  }

  /**
   * Layer.activate: throws IllegalStateException when there are at least as
   * many inputs as weights; otherwise one sigmoid per output, where a read
   * past the weights throws. The bias term weights.last() * BIAS is zero.
   */
  function Activate(l: Layer, inputs: seq<real>, sigmoid: real -> real): (r: Result<seq<real>>)
    ensures r == Err(IllegalState) <==> |l.weights| <= |inputs|
    ensures r == Err(IndexOutOfBounds) <==> |inputs| < |l.weights| && !ReadsInBounds(l, |inputs|)
    ensures r.Ok? ==> |r.value| == l.outputSize
    ensures r.Ok? ==> forall o :: 0 <= o < l.outputSize ==>
      r.value[o] == sigmoid(NetInput(l.weights, inputs, o, |inputs|))
  {
    if |inputs| >= |l.weights| then Err(IllegalState)
    else if !ReadsInBounds(l, |inputs|) then Err(IndexOutOfBounds)
    else
      Ok(seq(l.outputSize, o requires 0 <= o < l.outputSize =>
        sigmoid(NetInput(l.weights, inputs, o, |inputs|) + l.weights[|l.weights| - 1] * BIAS)))
  }

  /** In a layer with inputSize * outputSize + 1 weights, every (input, output) pair reads inside the weights. */
  lemma WeightIndexInBounds(l: Layer, input: nat, output: nat)
    requires |l.weights| == Connections(l.inputSize, l.outputSize) + 1
    requires input < l.inputSize && output < l.outputSize
    ensures WeightIndex(input, output) < |l.weights|
  {
    ConnectionsIsProduct(l.inputSize, l.outputSize);
    MulMonotone(input, output, l.inputSize - 1, l.outputSize - 1);
    assert (l.inputSize - 1) * (l.outputSize - 1) + 1 <= l.inputSize * l.outputSize;
  }

  /** A freshly shaped layer with at least one output accepts any input no longer than its inputSize. */
  lemma ActivateAcceptsFittingInputs(l: Layer, inputs: seq<real>, sigmoid: real -> real)
    requires |l.weights| == Connections(l.inputSize, l.outputSize) + 1 && 1 <= l.outputSize
    requires |inputs| <= l.inputSize
    ensures Activate(l, inputs, sigmoid).Ok?
  {
    ConnectionsIsProduct(l.inputSize, l.outputSize);
    MulMonotone(l.inputSize, 1, l.inputSize, l.outputSize);
    forall i, o | 0 <= i < |inputs| && 0 <= o < l.outputSize
      ensures WeightIndex(i, o) < |l.weights|
    {
      WeightIndexInBounds(l, i, o);
    }
  }

  /** The size guard does not protect the reads: 14 inputs pass it on a 10-input layer and then overrun. */
  lemma GuardDoesNotProtectReads(sigmoid: real -> real)
    ensures Activate(Layer(10, 11, seq(111, _ => 0.0)), seq(14, _ => 0.0), sigmoid) == Err(IndexOutOfBounds)
  {
    var l := Layer(10, 11, seq(111, _ => 0.0));
    assert WeightIndex(13, 10) == 131;
    assert !ReadsInBounds(l, 14);
  }

  /** Feeds the inputs through the layers in order; the first exception stops the pass. */
  function Feed(layers: seq<Layer>, inputs: seq<real>, sigmoid: real -> real): (r: Result<seq<real>>)
    ensures |layers| == 0 ==> r == Ok(inputs)
    ensures r.Ok? && 0 < |layers| ==> |r.value| == layers[|layers| - 1].outputSize
    decreases |layers|
  {
    if |layers| == 0 then Ok(inputs)
    else
      var hidden :- Feed(layers[..|layers| - 1], inputs, sigmoid);
      Activate(layers[|layers| - 1], hidden, sigmoid)
  }

  /** Network.update: the output of the last layer, or the inputs themselves when there is no layer. */
  function Update(n: Network, inputs: seq<real>, sigmoid: real -> real): Result<seq<real>> {
    Feed(n.layers, inputs, sigmoid)
  }

  /** One more layer of the pass: activate the last layer on what the layers before it returned. */
  lemma FeedOneMore(layers: seq<Layer>, inputs: seq<real>, sigmoid: real -> real, k: nat)
    requires 1 <= k <= |layers| && Feed(layers[..k - 1], inputs, sigmoid).Ok?
    ensures Feed(layers[..k], inputs, sigmoid) == Activate(layers[k - 1], Feed(layers[..k - 1], inputs, sigmoid).value, sigmoid)
  {
    assert layers[..k][..k - 1] == layers[..k - 1];
  }

  /** When the first layer fails, the whole pass fails with its error: no later layer runs. */
  lemma {:induction false} FeedStopsAtFirstLayer(layers: seq<Layer>, inputs: seq<real>, sigmoid: real -> real, k: nat)
    requires 1 <= k <= |layers| && Activate(layers[0], inputs, sigmoid).Err?
    ensures Feed(layers[..k], inputs, sigmoid) == Activate(layers[0], inputs, sigmoid)
    decreases k
  {
    if k == 1 {
      FeedOneMore(layers, inputs, sigmoid, 1);
    } else {
      FeedStopsAtFirstLayer(layers, inputs, sigmoid, k - 1);
      assert layers[..k][..k - 1] == layers[..k - 1];
    }
  }

  /** Unless there are exactly two layers, each layer after the first takes as many inputs as the previous one outputs. */
  lemma WidthsChain(t: Topology, k: nat)
    requires t.layerCount != 2 && 1 <= k < t.layerCount
    ensures LayerShape(t, k).0 == LayerShape(t, k - 1).1 == t.hiddenCount
  {
  }

  lemma {:induction false} FeedShapedPrefix(t: Topology, n: Network, inputs: seq<real>, sigmoid: real -> real, k: nat)
    requires WellShaped(t, n) && t.layerCount != 2 && 1 <= t.hiddenCount && 1 <= t.outputCount
    requires |inputs| <= t.inputCount && 1 <= k <= t.layerCount
    ensures Feed(n.layers[..k], inputs, sigmoid).Ok?
    ensures |Feed(n.layers[..k], inputs, sigmoid).value| == LayerShape(t, k - 1).1
  {
    assert Shaped(t, k - 1, n.layers[k - 1]);
    if k == 1 {
      FeedOneMore(n.layers, inputs, sigmoid, 1);
      ActivateAcceptsFittingInputs(n.layers[0], inputs, sigmoid);
    } else {
      FeedShapedPrefix(t, n, inputs, sigmoid, k - 1);
      FeedOneMore(n.layers, inputs, sigmoid, k);
      WidthsChain(t, k - 1);
      ActivateAcceptsFittingInputs(n.layers[k - 1], Feed(n.layers[..k - 1], inputs, sigmoid).value, sigmoid);
    }
  }

  /** With at least three layers, update of a well-shaped network returns exactly outputCount values. */
  lemma UpdateReturnsOutputCount(t: Topology, n: Network, inputs: seq<real>, sigmoid: real -> real)
    requires WellShaped(t, n) && 3 <= t.layerCount && 1 <= t.hiddenCount && 1 <= t.outputCount
    requires |inputs| <= t.inputCount
    ensures Update(n, inputs, sigmoid).Ok?
    ensures |Update(n, inputs, sigmoid).value| == t.outputCount
  {
    FeedShapedPrefix(t, n, inputs, sigmoid, t.layerCount);
    assert n.layers[..t.layerCount] == n.layers;
  }

  /** The file's own topology returns OUTPUT_COUNT = 3 values for any input array that is not too long. */
  lemma DefaultUpdateReturnsThree(asteroidsToConsider: nat, n: Network, inputs: seq<real>, sigmoid: real -> real)
    requires WellShaped(DefaultTopology(asteroidsToConsider), n)
    requires |inputs| <= InputCount(asteroidsToConsider)
    ensures Update(n, inputs, sigmoid).Ok?
    ensures |Update(n, inputs, sigmoid).value| == OUTPUT_COUNT
  {
    UpdateReturnsOutputCount(DefaultTopology(asteroidsToConsider), n, inputs, sigmoid);
  }
}

=== FILE: physics.dfy ===
/**
 * The world geometry every moving body shares: the constant world sizes,
 * toroidal wrap-around of positions, and the `max(lo, min(hi, v))` clamp.
 */
module Physics {

  /** Simulation world size (src/Simulation/Simulation.kt). */
  const SIM_WIDTH: real := 1000.0
  const SIM_HEIGHT: real := 600.0

  /** Window size (src/GUI/Main.kt), used by the bullets and the GameModel package. */
  const WIDTH: real := 1000.0
  const HEIGHT: real := 600.0

  function Abs(v: real): real {
    if v < 0.0 then -v else v
  }

  function Min(a: real, b: real): real {
    if a <= b then a else b
  }

  function Max(a: real, b: real): real {
    if a >= b then a else b
  }

  /**
   * One wrap-around step on an axis of length `extent`: a coordinate that ran
   * past the far edge restarts at 0, one that ran below 0 restarts at the far
   * edge, anything else stays put.
   */
  function Wrap(v: real, extent: real): (r: real)
    requires 0.0 <= extent
    ensures 0.0 <= r <= extent
    ensures 0.0 <= v <= extent ==> r == v
    ensures extent < v ==> r == 0.0
    ensures v < 0.0 ==> r == extent
  {
    if v > extent then 0.0 else if v < 0.0 then extent else v
  }

  /** A fraction of a non-negative extent stays between 0 and the extent. */
  lemma FractionWithin(r: real, e: real)
    requires 0.0 <= r <= 1.0 && 0.0 <= e
    ensures 0.0 <= r * e <= e
  {
    assert 0.0 <= r * e by { NonNegativeProduct(r, e); }
    assert 0.0 <= (1.0 - r) * e by { NonNegativeProduct(1.0 - r, e); }
    assert e - r * e == (1.0 - r) * e;
  }

  lemma NonNegativeProduct(a: real, b: real)
    requires 0.0 <= a && 0.0 <= b
    ensures 0.0 <= a * b
  {
    if a == 0.0 || b == 0.0 {
      assert a * b == 0.0;
    } else {
      assert 0.0 < a * b;
    }
  }

  /** `Math.max(lo, Math.min(hi, v))`. */
  function Clamp(lo: real, hi: real, v: real): (r: real)
    ensures lo <= hi ==> lo <= r <= hi
    ensures lo <= v <= hi ==> r == v
    ensures lo <= hi && v <= lo ==> r == lo
    ensures lo <= hi && hi <= v ==> r == hi
  {
    Max(lo, Min(hi, v))
  }

  /**
   * `Math.sin(Math.toRadians(deg))` and `Math.cos(Math.toRadians(deg))`,
   * left uninterpreted. Only one lemma assumes anything of them, and it
   * states sin^2 + cos^2 = 1 as its own requirement.
   */
  datatype Trig = Trig(sinDeg: real -> real, cosDeg: real -> real)
}

=== FILE: sim_asteroid.dfy ===
/**
 * An asteroid of the simulation package: a random position and velocity
 * scaled by its size, or, for a chunk split off by a bullet, its parent's
 * position and a velocity near a third of the bullet's.
 */
module SimAsteroid {
  import opened Physics

  datatype Asteroid = Asteroid(size: int, x: real, y: real, vX: real, vY: real, vRot: real, rot: real)

  /** The draws a new asteroid's initialisers make, in order: randomAsteroidX, randomAsteroidY, then randomDouble() for vX, vY and vRot. */
  datatype Draw = Draw(x: real, y: real, vX: real, vY: real, vRot: real)

  /** Draws in the ranges the random source produces: positions in [0, size of the world), doubles in [0, 1). */
  predicate ValidDraw(d: Draw) {
    && 0.0 <= d.x < SIM_WIDTH && 0.0 <= d.y < SIM_HEIGHT
    && 0.0 <= d.vX < 1.0 && 0.0 <= d.vY < 1.0 && 0.0 <= d.vRot < 1.0
  }

  /** `(((1.0 - -1.0) / (1.0 - 0.0)) * (r - 1.0) + 1.0) * size`: maps r in [0, 1) onto [-size, size). */
  function InitialVelocity(r: real, size: int): real {
    (((1.0 - -1.0) / (1.0 - 0.0)) * (r - 1.0) + 1.0) * (size as real)
  }

  lemma InitialVelocityBounds(r: real, size: int)
    requires 0.0 <= r < 1.0 && 0 < size
    ensures -(size as real) <= InitialVelocity(r, size) < size as real
  {
    var s := size as real;
    assert InitialVelocity(r, size) == 2.0 * r * s - s;
    assert 0.0 <= r * s < s by {
      assert (1.0 - r) * s > 0.0;
    }
  }

  /** Asteroid(size): the primary constructor. */
  function New(size: int, d: Draw): (a: Asteroid)
    ensures a.size == size && a.rot == 0.0 && a.vRot == d.vRot
    ensures ValidDraw(d) ==> 0.0 <= a.x < SIM_WIDTH && 0.0 <= a.y < SIM_HEIGHT
  {
    Asteroid(size, d.x, d.y, InitialVelocity(d.vX, size), InitialVelocity(d.vY, size), d.vRot, 0.0)
  }

  /** A new asteroid of positive size moves less than `size` along each axis per step. */
  lemma NewSpeedBoundedBySize(size: int, d: Draw)
    requires ValidDraw(d) && 0 < size
    ensures -(size as real) <= New(size, d).vX < size as real
    ensures -(size as real) <= New(size, d).vY < size as real
  {
    InitialVelocityBounds(d.vX, size);
    InitialVelocityBounds(d.vY, size);
  }

  /** The extra draws of the split constructor: randomDouble(2.0) and randomBoolean() for each axis. */
  datatype SplitDraw = SplitDraw(magnitudeX: real, positiveX: bool, magnitudeY: real, positiveY: bool)

  function Signed(magnitude: real, positive: bool): real {
    if positive then magnitude else -magnitude
  }

  /** Asteroid(size, parent, bullet): the parent's position, a third of the bullet's velocity plus a signed draw. */
  function Split(size: int, parent: Asteroid, bulletVx: real, bulletVy: real, d: Draw, s: SplitDraw): (a: Asteroid)
    ensures a.size == size && a.x == parent.x && a.y == parent.y
    ensures a.vX - bulletVx / 3.0 == Signed(s.magnitudeX, s.positiveX)
    ensures a.vY - bulletVy / 3.0 == Signed(s.magnitudeY, s.positiveY)
  {
    New(size, d).(x := parent.x, y := parent.y,
                  vX := bulletVx / 3.0 + Signed(s.magnitudeX, s.positiveX),
                  vY := bulletVy / 3.0 + Signed(s.magnitudeY, s.positiveY))
  }

  /** With magnitudes drawn from [0, 2), a chunk's velocity is within 2 of a third of the bullet's on each axis. */
  lemma SplitVelocityNearBullet(size: int, parent: Asteroid, bulletVx: real, bulletVy: real, d: Draw, s: SplitDraw)
    requires 0.0 <= s.magnitudeX < 2.0 && 0.0 <= s.magnitudeY < 2.0
    ensures Abs(Split(size, parent, bulletVx, bulletVy, d, s).vX - bulletVx / 3.0) < 2.0
    ensures Abs(Split(size, parent, bulletVx, bulletVy, d, s).vY - bulletVy / 3.0) < 2.0
  {
  }

  /**
   * update: turn by vRot and move by (vX, vY), then wrap into the world.
   * Size and velocity stay as they were.
   */
  function Update(a: Asteroid): (r: Asteroid)
    ensures r.rot == a.rot + a.vRot
    ensures 0.0 <= r.x <= SIM_WIDTH && 0.0 <= r.y <= SIM_HEIGHT
    ensures 0.0 <= a.x + a.vX <= SIM_WIDTH ==> r.x == a.x + a.vX
    ensures 0.0 <= a.y + a.vY <= SIM_HEIGHT ==> r.y == a.y + a.vY
    ensures SIM_WIDTH < a.x + a.vX ==> r.x == 0.0
    ensures a.x + a.vX < 0.0 ==> r.x == SIM_WIDTH
    ensures SIM_HEIGHT < a.y + a.vY ==> r.y == 0.0
    ensures a.y + a.vY < 0.0 ==> r.y == SIM_HEIGHT
    ensures r == a.(x := r.x, y := r.y, rot := r.rot)
  {
    a.(rot := a.rot + a.vRot, x := Wrap(a.x + a.vX, SIM_WIDTH), y := Wrap(a.y + a.vY, SIM_HEIGHT))
  }
}

=== FILE: sim_bullet.dfy ===
/**
 * A bullet of the simulation package: fired from the ship's position with
 * the ship's velocity plus bulletVel along the ship's heading, it moves in a
 * straight line across the wrapped window until it explodes or times out.
 */
module SimBullet {
  import opened Physics
  import Config

  /**
   * `serial` stands for the bullet's object identity; `listening` records
   * whether callbacks were set.
   */
  datatype Bullet = Bullet(x: real, y: real, vX: real, vY: real, shipRot: real, serial: nat, listening: bool)

  /** The callbacks a bullet can make on whoever listens to it. */
  datatype Event = Exploded(serial: nat) | TimedOut(serial: nat)

  /**
   * The bullet constructor with its default arguments: it starts at the
   * ship's position and its velocity is fixed once, here.
   */
  function Fire(c: Config.Configuration, trig: Trig, shipX: real, shipY: real,
                shipVx: real, shipVy: real, shipRot: real, serial: nat): (b: Bullet)
    ensures b.x == shipX && b.y == shipY && b.shipRot == shipRot && b.serial == serial
    ensures !b.listening
  {
    Bullet(shipX, shipY,
           shipVx + c.bulletVel * -trig.sinDeg(shipRot),
           shipVy + c.bulletVel * trig.cosDeg(shipRot),
           shipRot, serial, false)
  }

  /** Relative to the ship that fired it, a bullet moves at exactly bulletVel, given sin² + cos² = 1 at that heading. */
  lemma FiredAtBulletSpeed(c: Config.Configuration, trig: Trig, shipX: real, shipY: real,
                           shipVx: real, shipVy: real, shipRot: real, serial: nat)
    requires trig.sinDeg(shipRot) * trig.sinDeg(shipRot) + trig.cosDeg(shipRot) * trig.cosDeg(shipRot) == 1.0
    ensures var b := Fire(c, trig, shipX, shipY, shipVx, shipVy, shipRot, serial);
      (b.vX - shipVx) * (b.vX - shipVx) + (b.vY - shipVy) * (b.vY - shipVy) == c.bulletVel * c.bulletVel
  {
    var s, k := trig.sinDeg(shipRot), trig.cosDeg(shipRot);
    var v := c.bulletVel;
    calc {
      (v * -s) * (v * -s) + (v * k) * (v * k);
      v * v * (s * s + k * k);
      v * v;
    }
  }

  function SetCallbacks(b: Bullet): (r: Bullet)
    ensures r.listening
    ensures r == b.(listening := true)
  {
    b.(listening := true)
  }

  /**
   * update: one step by the fixed velocity, then wrap into the window. The
   * velocity, heading, identity and listener stay as they were.
   */
  function Update(b: Bullet): (r: Bullet)
    ensures 0.0 <= r.x <= WIDTH && 0.0 <= r.y <= HEIGHT
    ensures 0.0 <= b.x + b.vX <= WIDTH ==> r.x == b.x + b.vX
    ensures 0.0 <= b.y + b.vY <= HEIGHT ==> r.y == b.y + b.vY
    ensures r == b.(x := r.x, y := r.y)
  {
    b.(x := Wrap(b.x + b.vX, WIDTH), y := Wrap(b.y + b.vY, HEIGHT))
  }

  /** n updates in a row. */
  function Advance(b: Bullet, n: nat): Bullet {
    if n == 0 then b else Update(Advance(b, n - 1))
  }

  /** However many times a bullet updates, its velocity is the one it was fired with, and it stays in the window. */
  lemma {:induction false} VelocityIsFixed(b: Bullet, n: nat)
    ensures Advance(b, n).vX == b.vX && Advance(b, n).vY == b.vY
    ensures Advance(b, n).serial == b.serial && Advance(b, n).listening == b.listening
    ensures 0 < n ==> 0.0 <= Advance(b, n).x <= WIDTH && 0.0 <= Advance(b, n).y <= HEIGHT
  {
    if n > 0 {
      VelocityIsFixed(b, n - 1);
    }
  }

  /** explode: one onBulletExploded call when callbacks are set, none otherwise. */
  function Explode(b: Bullet): (events: seq<Event>)
    ensures b.listening ==> events == [Exploded(b.serial)]
    ensures !b.listening ==> events == []
  {
    if b.listening then [Exploded(b.serial)] else []
  }

  /** The timeout timer firing: one onBulletTimedOut call when callbacks are set, none otherwise. */
  function TimeoutElapsed(b: Bullet): (events: seq<Event>)
    ensures b.listening ==> events == [TimedOut(b.serial)]
    ensures !b.listening ==> events == []
  {
    if b.listening then [TimedOut(b.serial)] else []
  }
}

=== FILE: sim_ship.dfy ===
/**
 * The ship of the simulation package: what it senses (the nearest
 * asteroids across the wrapped world), how it turns its network's outputs
 * into torque, thrust and a shot, how it moves, and the bookkeeping of its
 * bullets, timers and kills. The network is the `brain` parameter.
 */
module SimShip {
  import opened Faults
  import opened Physics
  import Config
  import SimBullet
  import SimAsteroid
  import NeuralNetwork

  datatype Ship = Ship(
    x: real, y: real, vX: real, vY: real, vRot: real, rot: real,
    canShoot: bool,
    bullets: seq<SimBullet.Bullet>,
    fired: nat,                      // bullets fired so far; the serial of the next one
    asteroidsDestroyed: nat,
    secondsSurvived: nat,
    secondsElapsedWhenWon: Option<nat>,
    sensed: seq<(real, real)>,       // vectorsToClosestAsteroids as last computed
    direction: (real, real),
    velocity: (real, real),
    reloadArmed: bool,               // the reload timer is running
    survivalArmed: bool,             // the one-second survival timer is running
    listening: bool)                 // callbacks are set

  /* ---------------------------------------------------------------------- */
  /* Construction, reset, fitness, timers                                    */
  /* ---------------------------------------------------------------------- */

  /** A ship as constructed: centred, at rest, unable to shoot, survival timer running. */
  function New(): (s: Ship)
    ensures s.x == SIM_WIDTH / 2.0 && s.y == SIM_HEIGHT / 2.0
    ensures !s.canShoot && s.bullets == [] && s.asteroidsDestroyed == 0
    ensures s.survivalArmed && !s.reloadArmed && !s.listening
  {
    Ship(SIM_WIDTH / 2.0, SIM_HEIGHT / 2.0, 0.0, 0.0, 0.0, 0.0, false, [], 0, 0, 0, None,
         [], (0.0, 0.0), (0.0, 0.0), false, true, false)
  }

  /** fitness(): the kill count weighted by asteroidFitnessWeight. */
  function Fitness(c: Config.Configuration, s: Ship): real {
    (s.asteroidsDestroyed as real) * c.asteroidFitnessWeight
  }

  /**
   * reset: back to the centre and at rest, able to shoot, no bullets, no
   * kills, no seconds, both timers restarted. Callbacks and the bullet
   * counter are untouched.
   */
  function Reset(s: Ship): (r: Ship)
    ensures r.canShoot && r.bullets == [] && r.sensed == []
    ensures r.asteroidsDestroyed == 0 && r.secondsSurvived == 0 && r.secondsElapsedWhenWon == None
    ensures r.x == SIM_WIDTH / 2.0 && r.y == SIM_HEIGHT / 2.0
    ensures r.vX == 0.0 && r.vY == 0.0 && r.vRot == 0.0 && r.rot == 0.0
    ensures r.reloadArmed && r.survivalArmed
    ensures r.listening == s.listening && r.fired == s.fired
  {
    s.(x := SIM_WIDTH / 2.0, y := SIM_HEIGHT / 2.0, vX := 0.0, vY := 0.0, vRot := 0.0, rot := 0.0,
       canShoot := true, bullets := [], sensed := [], direction := (0.0, 0.0), velocity := (0.0, 0.0),
       secondsElapsedWhenWon := None, asteroidsDestroyed := 0, secondsSurvived := 0,
       reloadArmed := true, survivalArmed := true)
  }

  /** A reset ship scores nothing, and resetting twice is resetting once. */
  lemma ResetScoresNothing(c: Config.Configuration, s: Ship)
    ensures Fitness(c, Reset(s)) == 0.0
    ensures Reset(Reset(s)) == Reset(s)
  {
  }

  function SetCallbacks(s: Ship, listening: bool): (r: Ship)
    ensures r.listening == listening && r == s.(listening := listening)
  {
    s.(listening := listening)
  }

  /** The reload timer firing: the ship may shoot again. */
  function ReloadElapsed(s: Ship): (r: Ship)
    ensures s.reloadArmed ==> r.canShoot && !r.reloadArmed
    ensures !s.reloadArmed ==> r == s
    ensures r == s.(canShoot := r.canShoot, reloadArmed := r.reloadArmed)
  {
    if s.reloadArmed then s.(canShoot := true, reloadArmed := false) else s
  }

  /** The survival timer firing: one more second survived, and the timer runs again. */
  function SecondElapsed(s: Ship): (r: Ship)
    ensures s.survivalArmed ==> r.secondsSurvived == s.secondsSurvived + 1
    ensures !s.survivalArmed ==> r == s
    ensures r == s.(secondsSurvived := r.secondsSurvived)
  {
    if s.survivalArmed then s.(secondsSurvived := s.secondsSurvived + 1) else s
  }

  /**
   * stop: both timers stop; when the kill count equals the configured
   * number of asteroids, the seconds survived so far are recorded as the
   * winning time.
   */
  function Stop(c: Config.Configuration, s: Ship): (r: Ship)
    ensures !r.reloadArmed && !r.survivalArmed
    ensures s.asteroidsDestroyed == c.asteroids ==> r.secondsElapsedWhenWon == Some(s.secondsSurvived)
    ensures s.asteroidsDestroyed != c.asteroids ==> r.secondsElapsedWhenWon == s.secondsElapsedWhenWon
    ensures r == s.(reloadArmed := false, survivalArmed := false, secondsElapsedWhenWon := r.secondsElapsedWhenWon)
  {
    var stopped := s.(reloadArmed := false, survivalArmed := false);
    if s.asteroidsDestroyed == c.asteroids then stopped.(secondsElapsedWhenWon := Some(s.secondsSurvived))
    else stopped
  }

  /** Stopping twice is stopping once, and once stopped neither timer changes the ship. */
  lemma StopSilencesTimers(c: Config.Configuration, s: Ship)
    ensures Stop(c, Stop(c, s)) == Stop(c, s)
    ensures SecondElapsed(Stop(c, s)) == Stop(c, s)
    ensures ReloadElapsed(Stop(c, s)) == Stop(c, s)
  {
  }

  /* ---------------------------------------------------------------------- */
  /* Bullet callbacks                                                        */
  /* ---------------------------------------------------------------------- */

  /** Index of the first bullet with this identity, if any. */
  function IndexOfSerial(bullets: seq<SimBullet.Bullet>, serial: nat): (r: Option<nat>)
    ensures r.Some? ==> r.value < |bullets| && bullets[r.value].serial == serial
    ensures r.Some? ==> forall k :: 0 <= k < r.value ==> bullets[k].serial != serial
    ensures r.None? ==> forall k :: 0 <= k < |bullets| ==> bullets[k].serial != serial
  {
    if |bullets| == 0 then None
    else if bullets[0].serial == serial then Some(0)
    else match IndexOfSerial(bullets[1..], serial)
      case None => None
      case Some(k) => Some(k + 1)
  }

  /** `bullets.remove(bullet)`: drops the first occurrence of that bullet, if it is still there. */
  function RemoveSerial(bullets: seq<SimBullet.Bullet>, serial: nat): (r: seq<SimBullet.Bullet>)
    ensures IndexOfSerial(bullets, serial).None? ==> r == bullets
    ensures IndexOfSerial(bullets, serial).Some? ==>
      var k := IndexOfSerial(bullets, serial).value;
      |r| == |bullets| - 1 && r == bullets[..k] + bullets[k + 1..]
  {
    match IndexOfSerial(bullets, serial)
      case None => bullets
      case Some(k) => bullets[..k] + bullets[k + 1..]
  }

  /** Removal by identity takes out exactly one bullet, the one asked for, and keeps the rest. */
  lemma RemoveSerialIsOneBulletLess(bullets: seq<SimBullet.Bullet>, serial: nat)
    requires IndexOfSerial(bullets, serial).Some?
    ensures multiset(RemoveSerial(bullets, serial)) + multiset{bullets[IndexOfSerial(bullets, serial).value]} == multiset(bullets)
  {
    MultisetWithout(bullets, IndexOfSerial(bullets, serial).value);
  }

  /** Taking one element out of a sequence takes exactly that element out of its multiset. */
  lemma MultisetWithout<T>(xs: seq<T>, k: nat)
    requires k < |xs|
    ensures multiset(xs[..k] + xs[k + 1..]) + multiset{xs[k]} == multiset(xs)
  {
    assert xs == xs[..k] + ([xs[k]] + xs[k + 1..]);
  }

  /** onBulletExploded: the bullet goes, and the kill count goes up by one whether or not it was still there. */
  function OnBulletExploded(s: Ship, serial: nat): (r: Ship)
    ensures r.asteroidsDestroyed == s.asteroidsDestroyed + 1
    ensures r.bullets == RemoveSerial(s.bullets, serial)
    ensures r == s.(bullets := r.bullets, asteroidsDestroyed := r.asteroidsDestroyed)
  {
    s.(bullets := RemoveSerial(s.bullets, serial), asteroidsDestroyed := s.asteroidsDestroyed + 1)
  }

  /** onBulletTimedOut: the bullet goes, and nothing else changes. */
  function OnBulletTimedOut(s: Ship, serial: nat): (r: Ship)
    ensures r == s.(bullets := RemoveSerial(s.bullets, serial))
    ensures |r.bullets| <= |s.bullets|
  {
    s.(bullets := RemoveSerial(s.bullets, serial))
  }

  /** An exploded bullet adds exactly asteroidFitnessWeight to the fitness. */
  lemma ExplosionScoresOneKill(c: Config.Configuration, s: Ship, serial: nat)
    ensures Fitness(c, OnBulletExploded(s, serial)) == Fitness(c, s) + c.asteroidFitnessWeight
  {
  }

  /** Delivers bullet callbacks to the ship in order. */
  function HandleEvents(s: Ship, events: seq<SimBullet.Event>): (r: Ship)
    ensures r.asteroidsDestroyed == s.asteroidsDestroyed + Explosions(events)
    ensures r == s.(bullets := r.bullets, asteroidsDestroyed := r.asteroidsDestroyed)
    decreases |events|
  {
    if |events| == 0 then s
    else
      var next := match events[0]
        case Exploded(serial) => OnBulletExploded(s, serial)
        case TimedOut(serial) => OnBulletTimedOut(s, serial);
      HandleEvents(next, events[1..])
  }

  function Explosions(events: seq<SimBullet.Event>): nat {
    if |events| == 0 then 0 else (if events[0].Exploded? then 1 else 0) + Explosions(events[1..])
  }

  /* ---------------------------------------------------------------------- */
  /* Sensing the nearest asteroids                                           */
  /* ---------------------------------------------------------------------- */

  /** The wrap offset `i`: +1 when the other body is more than half the world behind, -1 when more than half ahead. */
  function WrapOffset(own: real, other: real, extent: real): int {
    if own - other > extent / 2.0 then 1 else if own - other < -extent / 2.0 then -1 else 0
  }

  /** `other + i * extent - own`: the offset to the nearest wrapped image of `other`. */
  function MinimalImage(own: real, other: real, extent: real): real {
    other + (WrapOffset(own, other, extent) as real) * extent - own
  }

  /**
   * For positions inside the world, the chosen image is at most half the
   * world away and no farther than any of the three images the offset
   * chooses between.
   */
  lemma MinimalImageIsNearest(own: real, other: real, extent: real)
    requires 0.0 < extent && 0.0 <= own <= extent && 0.0 <= other <= extent
    ensures -1 <= WrapOffset(own, other, extent) <= 1
    ensures Abs(MinimalImage(own, other, extent)) <= extent / 2.0
    ensures Abs(MinimalImage(own, other, extent)) <= Abs(other - own)
    ensures Abs(MinimalImage(own, other, extent)) <= Abs(other + extent - own)
    ensures Abs(MinimalImage(own, other, extent)) <= Abs(other - extent - own)
  {
  }

  /** `((1 - -1) / (extent - -extent)) * (d - extent) + 1`: maps [-extent, extent] onto [-1, 1]. */
  function Normalise(d: real, extent: real): real
    requires extent != 0.0
  {
    ((1.0 - -1.0) / (extent - -extent)) * (d - extent) + 1.0
  }

  /** getDebugShapes' `((extent - -extent) / (1 - -1)) * (n - 1) + extent`. */
  function Denormalise(n: real, extent: real): real {
    ((extent - -extent) / (1.0 - -1.0)) * (n - 1.0) + extent
  }

  /** Normalising divides by the extent, de-normalising multiplies by it, and each undoes the other. */
  lemma NormaliseRoundTrip(d: real, n: real, extent: real)
    requires 0.0 < extent
    ensures Normalise(d, extent) == d / extent
    ensures Denormalise(n, extent) == extent * n
    ensures Denormalise(Normalise(d, extent), extent) == d
    ensures Normalise(Denormalise(n, extent), extent) == n
  {
    assert (1.0 - -1.0) / (extent - -extent) == 1.0 / extent;
    assert (extent - -extent) / (1.0 - -1.0) == extent;
    assert Normalise(d, extent) == d / extent;
    assert extent * (d / extent) == d;
  }

  /** Normalisation keeps [-extent, extent] inside [-1, 1]. */
  lemma NormaliseBounds(d: real, extent: real)
    requires 0.0 < extent && -extent <= d <= extent
    ensures -1.0 <= Normalise(d, extent) <= 1.0
  {
    NormaliseRoundTrip(d, 0.0, extent);
    assert -extent / extent <= d / extent <= extent / extent;
  }

  /** The endpoint getDebugShapes draws for one sensed vector: de-normalised, added to the ship and clamped to the world. */
  function DebugEndpoint(own: real, n: real, extent: real): (r: real)
    ensures 0.0 <= extent ==> 0.0 <= r <= extent
  {
    Clamp(0.0, extent, own + Denormalise(n, extent))
  }

  /** The debug line of a sensed vector ends at the point sensed, whenever that point lies inside the world. */
  lemma DebugEndpointFindsTarget(own: real, d: real, extent: real)
    requires 0.0 < extent && 0.0 <= own + d <= extent
    ensures DebugEndpoint(own, Normalise(d, extent), extent) == own + d
  {
    NormaliseRoundTrip(d, 0.0, extent);
  }

  /** The squared wrapped distance the ranking compares (the square root is monotone, so the order is the same). */
  function SquaredDistance(x: real, y: real, a: SimAsteroid.Asteroid): real {
    var dx := MinimalImage(x, a.x, SIM_WIDTH);
    var dy := MinimalImage(y, a.y, SIM_HEIGHT);
    dx * dx + dy * dy
  }

  /** The pair added for a chosen asteroid: the wrapped offset to where it will be after one step, normalised. */
  function SensedVector(x: real, y: real, a: SimAsteroid.Asteroid): (real, real) {
    (Normalise(MinimalImage(x, a.x, SIM_WIDTH) + a.vX, SIM_WIDTH),
     Normalise(MinimalImage(y, a.y, SIM_HEIGHT) + a.vY, SIM_HEIGHT))
  }

  /**
   * Asteroid k is what one round of the scan picks after `taken`: not yet
   * taken, no farther than any other untaken asteroid, and strictly nearer
   * than every untaken asteroid before it.
   */
  ghost predicate IsClosestUntaken(x: real, y: real, asteroids: seq<SimAsteroid.Asteroid>, taken: seq<nat>, k: nat) {
    && k < |asteroids| && k !in taken
    && forall j: nat :: j < |asteroids| && j !in taken ==>
         && SquaredDistance(x, y, asteroids[k]) <= SquaredDistance(x, y, asteroids[j])
         && (j < k ==> SquaredDistance(x, y, asteroids[k]) < SquaredDistance(x, y, asteroids[j]))
  }

  /** One round of the scan: the nearest untaken asteroid, or none when every asteroid is taken. */
  method ClosestUntaken(x: real, y: real, asteroids: seq<SimAsteroid.Asteroid>, taken: seq<nat>)
    returns (closest: Option<nat>)
    ensures closest.None? <==> forall j: nat :: j < |asteroids| ==> j in taken
    ensures closest.Some? ==> IsClosestUntaken(x, y, asteroids, taken, closest.value)
  {
    closest := None;
    var closestDistance := 0.0;
    var index: nat := 0;
    while index < |asteroids|
      invariant index <= |asteroids|
      invariant closest.None? ==> forall j: nat :: j < index ==> j in taken
      invariant closest.Some? ==>
        && closest.value < index && closest.value !in taken
        && closestDistance == SquaredDistance(x, y, asteroids[closest.value])
        && forall j: nat :: j < index && j !in taken ==>
             && closestDistance <= SquaredDistance(x, y, asteroids[j])
             && (j < closest.value ==> closestDistance < SquaredDistance(x, y, asteroids[j]))
    {
      if index !in taken {
        var distance := SquaredDistance(x, y, asteroids[index]);
        if closest.None? || distance < closestDistance {
          closest, closestDistance := Some(index), distance;
        }
      }
      index := index + 1;
    }
  }

  ghost predicate Distinct(picked: seq<nat>) {
    forall s, t :: 0 <= s < t < |picked| ==> picked[s] != picked[t]
  }

  /** Distinct indices below n number at most n, and when they number fewer, one index below n is missing. */
  lemma {:induction false} DistinctIndicesBelow(picked: seq<nat>, n: nat)
    requires Distinct(picked) && forall s :: 0 <= s < |picked| ==> picked[s] < n
    ensures |picked| <= n
    ensures |picked| < n ==> exists j: nat :: j < n && j !in picked
  {
    if |picked| == 0 {
      if 0 < n {
        assert 0 !in picked;
      }
    } else {
      assert 1 <= n by {
        assert picked[0] < n;
      }
      if n - 1 in picked {
        var p :| 0 <= p < |picked| && picked[p] == n - 1;
        var rest := picked[..p] + picked[p + 1..];
        assert forall s :: 0 <= s < |rest| ==> rest[s] == (if s < p then picked[s] else picked[s + 1]);
        assert Distinct(rest);
        DistinctIndicesBelow(rest, n - 1);
        if |picked| < n {
          var j: nat :| j < n - 1 && j !in rest;
          forall q | 0 <= q < |picked|
            ensures picked[q] != j
          {
            if q < p {
              assert picked[q] == rest[q];
            } else if p < q {
              assert picked[q] == rest[q - 1];
            }
          }
          assert j !in picked;
        }
      } else {
        DistinctIndicesBelow(picked, n - 1);
      }
    }
  }

  function MinNat(a: nat, b: nat): nat {
    if a <= b then a else b
  }

  /**
   * What a scan of `count` rounds yields: `picked` holds the asteroid taken
   * in each round that found one, always the nearest not yet taken (the
   * lowest index on ties); `vectors` holds their normalised vectors in that
   * order, then (0.0, 0.0) up to exactly `count` pairs.
   */
  ghost predicate SensesNearest(count: nat, x: real, y: real, asteroids: seq<SimAsteroid.Asteroid>,
                                vectors: seq<(real, real)>, picked: seq<nat>) {
    && |vectors| == count
    && |picked| == MinNat(count, |asteroids|)
    && Distinct(picked) && (forall s :: 0 <= s < |picked| ==> picked[s] < |asteroids|)
    && (forall s :: 0 <= s < |picked| ==> IsClosestUntaken(x, y, asteroids, picked[..s], picked[s]))
    && (forall s :: 0 <= s < |picked| ==> vectors[s] == SensedVector(x, y, asteroids[picked[s]]))
    && (forall s :: |picked| <= s < count ==> vectors[s] == (0.0, 0.0))
  }

  /** Two asteroids that both qualify as the nearest untaken one are the same asteroid. */
  lemma ClosestUntakenIsUnique(x: real, y: real, asteroids: seq<SimAsteroid.Asteroid>, taken: seq<nat>, k: nat, k': nat)
    requires IsClosestUntaken(x, y, asteroids, taken, k) && IsClosestUntaken(x, y, asteroids, taken, k')
    ensures k == k'
  {
  }

  /** Round by round, two scans of the same field from the same point pick the same asteroids. */
  lemma {:induction false} SamePicks(x: real, y: real, asteroids: seq<SimAsteroid.Asteroid>, p: seq<nat>, q: seq<nat>, n: nat)
    requires n <= |p| && n <= |q|
    requires forall s :: 0 <= s < |p| ==> IsClosestUntaken(x, y, asteroids, p[..s], p[s])
    requires forall s :: 0 <= s < |q| ==> IsClosestUntaken(x, y, asteroids, q[..s], q[s])
    ensures p[..n] == q[..n]
    decreases n
  {
    if n > 0 {
      var m := n - 1;
      SamePicks(x, y, asteroids, p, q, m);
      var taken := p[..m];
      assert IsClosestUntaken(x, y, asteroids, taken, p[m]);
      assert IsClosestUntaken(x, y, asteroids, taken, q[m]);
      ClosestUntakenIsUnique(x, y, asteroids, taken, p[m], q[m]);
      assert p[..n] == taken + [p[m]];
      assert q[..n] == q[..m] + [q[m]];
    }
  }

  /** The scan is a function of the ship's position and the field: whatever satisfies its description is the same result. */
  lemma SensingIsDeterministic(count: nat, x: real, y: real, asteroids: seq<SimAsteroid.Asteroid>,
                               vectors: seq<(real, real)>, picked: seq<nat>, vectors': seq<(real, real)>, picked': seq<nat>)
    requires SensesNearest(count, x, y, asteroids, vectors, picked)
    requires SensesNearest(count, x, y, asteroids, vectors', picked')
    ensures picked == picked' && vectors == vectors'
  {
    SamePicks(x, y, asteroids, picked, picked', |picked|);
    assert picked == picked[..|picked|] && picked' == picked'[..|picked'|];
    forall s | 0 <= s < count ensures vectors[s] == vectors'[s] {
      if s < |picked| {
        assert vectors[s] == SensedVector(x, y, asteroids[picked[s]]);
      }
    }
  }

  /** With no asteroid in the field the scan picks nothing and every pair is (0.0, 0.0). */
  lemma EmptyFieldSensesNothing(count: nat, x: real, y: real, vectors: seq<(real, real)>, picked: seq<nat>)
    requires SensesNearest(count, x, y, [], vectors, picked)
    ensures picked == [] && vectors == seq(count, _ => (0.0, 0.0))
  {
  }

  /** With nothing to sense the network still sees 2 k + 4 inputs: 2 k zeros, then heading and velocity. */
  lemma EmptyFieldInputs(count: nat, x: real, y: real, vectors: seq<(real, real)>, picked: seq<nat>,
                         direction: (real, real), velocity: (real, real))
    requires SensesNearest(count, x, y, [], vectors, picked)
    ensures NetworkInputs(vectors, direction, velocity) == seq(2 * count, _ => 0.0) + [direction.0, direction.1, velocity.0, velocity.1]
  {
    EmptyFieldSensesNothing(count, x, y, vectors, picked);
    var flat := Flatten(vectors);
    forall i | 0 <= i < 2 * count ensures flat[i] == 0.0 {
      var k := i / 2;
      assert i == 2 * k || i == 2 * k + 1;
      assert vectors[k] == (0.0, 0.0);
    }
    assert flat == seq(2 * count, _ => 0.0);
  }

  /**
   * vectorsToClosestAsteroids: `count` rounds each take the nearest asteroid
   * not taken yet (the lowest index on ties) and add its normalised vector;
   * the result is padded with (0.0, 0.0) to exactly `count` pairs.
   * `picked` lists the asteroid chosen in each round that found one.
   */
  method VectorsToClosestAsteroids(count: nat, x: real, y: real, asteroids: seq<SimAsteroid.Asteroid>)
    returns (vectors: seq<(real, real)>, picked: seq<nat>)
    ensures SensesNearest(count, x, y, asteroids, vectors, picked)
  {
    vectors, picked := [], [];
    var round := 0;
    while round < count
      invariant round <= count
      invariant |picked| == |vectors| == MinNat(round, |asteroids|)
      invariant Distinct(picked) && forall s :: 0 <= s < |picked| ==> picked[s] < |asteroids|
      invariant forall s :: 0 <= s < |picked| ==> IsClosestUntaken(x, y, asteroids, picked[..s], picked[s])
      invariant forall s :: 0 <= s < |picked| ==> vectors[s] == SensedVector(x, y, asteroids[picked[s]])
    {
      var closest := ClosestUntaken(x, y, asteroids, picked);
      if closest.Some? {
        var next := picked + [closest.value];
        assert Distinct(next);
        DistinctIndicesBelow(next, |asteroids|);
        assert forall s :: 0 <= s < |picked| ==> next[..s] == picked[..s];
        assert next[..|picked|] == picked;
        vectors := vectors + [SensedVector(x, y, asteroids[closest.value])];
        picked := next;
      } else {
        DistinctIndicesBelow(picked, |asteroids|);
      }
      round := round + 1;
    }
    while |vectors| != count
      invariant |picked| <= |vectors| <= count
      invariant forall s :: 0 <= s < |picked| ==> vectors[s] == SensedVector(x, y, asteroids[picked[s]])
      invariant forall s :: |picked| <= s < |vectors| ==> vectors[s] == (0.0, 0.0)
      decreases count - |vectors|
    {
      vectors := vectors + [(0.0, 0.0)];
    }
  }

  /** Successive rounds pick asteroids at non-decreasing distance. */
  lemma PicksAreNearestFirst(x: real, y: real, asteroids: seq<SimAsteroid.Asteroid>, picked: seq<nat>, s: nat, t: nat)
    requires Distinct(picked) && forall k :: 0 <= k < |picked| ==> picked[k] < |asteroids|
    requires forall k :: 0 <= k < |picked| ==> IsClosestUntaken(x, y, asteroids, picked[..k], picked[k])
    requires s < t < |picked|
    ensures SquaredDistance(x, y, asteroids[picked[s]]) <= SquaredDistance(x, y, asteroids[picked[t]])
  {
    assert IsClosestUntaken(x, y, asteroids, picked[..s], picked[s]);
    assert picked[t] !in picked[..s];
  }

  /* ---------------------------------------------------------------------- */
  /* Acting on the network's outputs                                         */
  /* ---------------------------------------------------------------------- */

  /** The network inputs: every sensed pair flattened in order. */
  function Flatten(pairs: seq<(real, real)>): (r: seq<real>)
    ensures |r| == 2 * |pairs|
    ensures forall k :: 0 <= k < |pairs| ==> r[2 * k] == pairs[k].0 && r[2 * k + 1] == pairs[k].1
  {
    if |pairs| == 0 then [] else [pairs[0].0, pairs[0].1] + Flatten(pairs[1..])
  }

  /** The network inputs: the flattened sensed pairs, then heading, then velocity. */
  function NetworkInputs(sensed: seq<(real, real)>, direction: (real, real), velocity: (real, real)): (r: seq<real>)
    ensures |r| == 2 * |sensed| + 4
    ensures r[..2 * |sensed|] == Flatten(sensed)
    ensures r[2 * |sensed|..] == [direction.0, direction.1, velocity.0, velocity.1]
  {
    Flatten(sensed) + [direction.0, direction.1, velocity.0, velocity.1]
  }

  /** torque: the sign of the first output. */
  function Torque(o: real): (r: real)
    ensures r == 1.0 || r == 0.0 || r == -1.0
    ensures r == 1.0 <==> o > 0.0
    ensures r == -1.0 <==> o < 0.0
  {
    if o > 0.0 then 1.0 else if o < 0.0 then -1.0 else 0.0
  }

  /** thrust: full when the second output is positive, none otherwise. */
  function Thrust(o: real): (r: real)
    ensures r == 1.0 || r == 0.0
    ensures r == 1.0 <==> o > 0.0
  {
    if o > 0.0 then 1.0 else 0.0
  }

  /** wantsToShoot: the third output is positive. */
  predicate WantsToShoot(o: real) {
    o > 0.0
  }

  /**
   * Applies torque and thrust: the angular velocity takes the clamped
   * torque minus rotational drag and turns the ship; each velocity component
   * takes the clamped thrust along the new heading minus drag; the ship
   * moves and wraps.
   */
  function Steer(c: Config.Configuration, s: Ship, torque: real, thrust: real, trig: Trig): (r: Ship)
    ensures r.rot == s.rot + r.vRot
    ensures 0.0 <= c.maxRotVel ==> -c.maxRotVel <= r.vRot + c.rotationalDragCoefficient * s.vRot <= c.maxRotVel
    ensures 0.0 <= c.maxVel ==> -c.maxVel <= r.vX - s.vX + c.dragCoefficient * s.vX <= c.maxVel
    ensures 0.0 <= c.maxVel ==> -c.maxVel <= r.vY - s.vY + c.dragCoefficient * s.vY <= c.maxVel
    ensures -c.maxRotVel <= s.vRot + torque <= c.maxRotVel ==>
      r.vRot == s.vRot + torque - c.rotationalDragCoefficient * s.vRot
    ensures -c.maxVel <= thrust * -trig.sinDeg(r.rot) <= c.maxVel ==>
      r.vX == s.vX + thrust * -trig.sinDeg(r.rot) - c.dragCoefficient * s.vX
    ensures -c.maxVel <= thrust * trig.cosDeg(r.rot) <= c.maxVel ==>
      r.vY == s.vY + thrust * trig.cosDeg(r.rot) - c.dragCoefficient * s.vY
    ensures 0.0 <= r.x <= SIM_WIDTH && 0.0 <= r.y <= SIM_HEIGHT
    ensures 0.0 <= s.x + r.vX <= SIM_WIDTH ==> r.x == s.x + r.vX
    ensures 0.0 <= s.y + r.vY <= SIM_HEIGHT ==> r.y == s.y + r.vY
    ensures r == s.(vRot := r.vRot, rot := r.rot, vX := r.vX, vY := r.vY, x := r.x, y := r.y)
  {
    var vRot := Clamp(-c.maxRotVel, c.maxRotVel, s.vRot + torque) - c.rotationalDragCoefficient * s.vRot;
    var rot := s.rot + vRot;
    var vX := s.vX + Clamp(-c.maxVel, c.maxVel, thrust * -trig.sinDeg(rot)) - c.dragCoefficient * s.vX;
    var vY := s.vY + Clamp(-c.maxVel, c.maxVel, thrust * trig.cosDeg(rot)) - c.dragCoefficient * s.vY;
    s.(vRot := vRot, rot := rot, vX := vX, vY := vY,
       x := Wrap(s.x + vX, SIM_WIDTH), y := Wrap(s.y + vY, SIM_HEIGHT))
  }

  /** The bullet the ship fires from its current state, listening to the ship. */
  function NewBullet(c: Config.Configuration, s: Ship, trig: Trig): SimBullet.Bullet {
    SimBullet.SetCallbacks(SimBullet.Fire(c, trig, s.x, s.y, s.vX, s.vY, s.rot, s.fired))
  }

  /**
   * The shoot gate: only a ship that can shoot and wants to fires, which
   * appends one bullet, clears canShoot and restarts the reload timer.
   */
  function ShootGate(c: Config.Configuration, s: Ship, wantsToShoot: bool, trig: Trig): (r: Ship)
    ensures r.canShoot == (s.canShoot && !wantsToShoot)
    ensures |r.bullets| == |s.bullets| + (if s.canShoot && wantsToShoot then 1 else 0)
    ensures s.canShoot && wantsToShoot ==>
      && r.bullets == s.bullets + [NewBullet(c, s, trig)]
      && r.fired == s.fired + 1 && r.reloadArmed
      && r == s.(canShoot := false, reloadArmed := true, bullets := r.bullets, fired := r.fired)
    ensures !(s.canShoot && wantsToShoot) ==> r == s
  {
    if s.canShoot && wantsToShoot then
      s.(canShoot := false, reloadArmed := true, bullets := s.bullets + [NewBullet(c, s, trig)], fired := s.fired + 1)
    else s
  }

  /** A fired bullet leaves from where the ship is, at the ship's heading, and is heard by the ship. */
  lemma BulletLeavesFromShip(c: Config.Configuration, s: Ship, trig: Trig)
    ensures NewBullet(c, s, trig).x == s.x && NewBullet(c, s, trig).y == s.y
    ensures NewBullet(c, s, trig).shipRot == s.rot && NewBullet(c, s, trig).listening
  {
  }

  /** Every bullet takes one step. */
  function UpdateBullets(bullets: seq<SimBullet.Bullet>): (r: seq<SimBullet.Bullet>)
    ensures |r| == |bullets|
    ensures forall k :: 0 <= k < |bullets| ==> r[k] == SimBullet.Update(bullets[k])
  {
    seq(|bullets|, k requires 0 <= k < |bullets| => SimBullet.Update(bullets[k]))
  }

  /**
   * What update does with three or more outputs: record what was sensed,
   * steer by the discretised torque and thrust, shoot through the gate,
   * then move every bullet. Kills, seconds, survival timer and callbacks
   * are left alone.
   */
  function Act(c: Config.Configuration, s: Ship, o: seq<real>, trig: Trig): (t: Ship)
    requires |o| >= 3
    ensures t.sensed == s.sensed && t.direction == s.direction && t.velocity == s.velocity
    ensures var steered := Steer(c, s, Torque(o[0]), Thrust(o[1]), trig);
      && t.vRot == steered.vRot && t.rot == steered.rot && t.vX == steered.vX && t.vY == steered.vY
      && t.x == steered.x && t.y == steered.y
    ensures t.rot == s.rot + t.vRot
    ensures 0.0 <= c.maxRotVel ==> -c.maxRotVel <= t.vRot + c.rotationalDragCoefficient * s.vRot <= c.maxRotVel
    ensures 0.0 <= c.maxVel ==> -c.maxVel <= t.vX - s.vX + c.dragCoefficient * s.vX <= c.maxVel
    ensures 0.0 <= c.maxVel ==> -c.maxVel <= t.vY - s.vY + c.dragCoefficient * s.vY <= c.maxVel
    ensures 0.0 <= t.x <= SIM_WIDTH && 0.0 <= t.y <= SIM_HEIGHT
    ensures t.canShoot == (s.canShoot && !WantsToShoot(o[2]))
    ensures |t.bullets| == |s.bullets| + (if s.canShoot && WantsToShoot(o[2]) then 1 else 0)
    ensures s.canShoot && WantsToShoot(o[2]) ==>
      && t.bullets[|s.bullets|] == SimBullet.Update(NewBullet(c, Steer(c, s, Torque(o[0]), Thrust(o[1]), trig), trig))
      && t.reloadArmed && t.fired == s.fired + 1
    ensures !(s.canShoot && WantsToShoot(o[2])) ==> t.reloadArmed == s.reloadArmed && t.fired == s.fired
    ensures forall k :: 0 <= k < |s.bullets| ==> t.bullets[k] == SimBullet.Update(s.bullets[k])
    ensures t.asteroidsDestroyed == s.asteroidsDestroyed && t.secondsSurvived == s.secondsSurvived
    ensures t.listening == s.listening && t.survivalArmed == s.survivalArmed
  {
    var steered := Steer(c, s, Torque(o[0]), Thrust(o[1]), trig);
    var shot := ShootGate(c, steered, WantsToShoot(o[2]), trig);
    shot.(bullets := UpdateBullets(shot.bullets))
  }

  /** getDirection: the unit vector along the ship's heading. */
  function Heading(trig: Trig, rot: real): (real, real) {
    (-trig.sinDeg(rot), trig.cosDeg(rot))
  }

  /** The ship with this frame's readings recorded: the sensed pairs, its heading and its velocity. */
  function Observed(s: Ship, sensed: seq<(real, real)>, trig: Trig): (r: Ship)
    ensures r.sensed == sensed && r.direction == Heading(trig, s.rot) && r.velocity == (s.vX, s.vY)
    ensures r == s.(sensed := r.sensed, direction := r.direction, velocity := r.velocity)
  {
    s.(sensed := sensed, direction := Heading(trig, s.rot), velocity := (s.vX, s.vY))
  }

  /**
   * update, up to the callback: sense the nearest asteroids, ask the
   * network, then act on its outputs. The network call fails when the
   * network throws or returns fewer than three outputs. `inputs` is what the
   * network saw, `sensed` and `picked` what the scan produced.
   */
  method Update(c: Config.Configuration, s: Ship, asteroids: seq<SimAsteroid.Asteroid>,
                brain: seq<real> -> Result<seq<real>>, trig: Trig)
    returns (r: Result<Ship>, inputs: seq<real>, sensed: seq<(real, real)>, picked: seq<nat>)
    ensures SensesNearest(c.asteroidsToConsider, s.x, s.y, asteroids, sensed, picked)
    ensures inputs == NetworkInputs(sensed, Heading(trig, s.rot), (s.vX, s.vY))
    ensures |inputs| == 2 * c.asteroidsToConsider + 4
    ensures r.Err? <==> brain(inputs).Err? || |brain(inputs).value| < 3
    ensures r.Err? && brain(inputs).Err? ==> r.error == brain(inputs).error
    ensures r.Err? && brain(inputs).Ok? ==> r.error == IndexOutOfBounds
    ensures r.Ok? ==> r.value == Act(c, Observed(s, sensed, trig), brain(inputs).value, trig)
  {
    sensed, picked := VectorsToClosestAsteroids(c.asteroidsToConsider, s.x, s.y, asteroids);
    inputs := NetworkInputs(sensed, Heading(trig, s.rot), (s.vX, s.vY));
    var outputs := brain(inputs);
    if outputs.Err? {
      return Err(outputs.error), inputs, sensed, picked;
    }
    var o := outputs.value;
    if |o| < 3 {
      return Err(IndexOutOfBounds), inputs, sensed, picked;
    }
    r := Ok(Act(c, Observed(s, sensed, trig), o, trig));
  }

  /**
   * The ship feeds 2 k + 4 inputs to a network whose first layer is sized for
   * 2 k: for every k >= 1 the size guard lets them through and the weight
   * reads then run past the layer's weights.
   */
  lemma ShipInputsOverrunDefaultNetwork(k: nat, layer: NeuralNetwork.Layer, inputs: seq<real>, sigmoid: real -> real)
    requires 1 <= k
    requires var t := NeuralNetwork.DefaultTopology(k); NeuralNetwork.Shaped(t, 0, layer)
    requires |inputs| == 2 * k + 4
    ensures NeuralNetwork.Activate(layer, inputs, sigmoid) == Err(IndexOutOfBounds)
  {
    var n := 2 * k;
    NeuralNetwork.ConnectionsIsProduct(n, n + 1);
    assert |layer.weights| == n * (n + 1) + 1;
    assert layer.outputSize == n + 1;
    assert NeuralNetwork.WeightIndex(n + 3, n) == (n + 3) * n + 1;
    assert (n + 3) * n == n * (n + 1) + 2 * n;
    assert !NeuralNetwork.ReadsInBounds(layer, |inputs|);
  }

  /**
   * Hence a ship steered by a well-shaped network of the file's own topology
   * fails every update once it considers at least one asteroid: the first
   * layer's failure ends the pass.
   */
  lemma DefaultNetworkRejectsShipInputs(k: nat, n: NeuralNetwork.Network, inputs: seq<real>, sigmoid: real -> real)
    requires 1 <= k && NeuralNetwork.WellShaped(NeuralNetwork.DefaultTopology(k), n)
    requires |inputs| == 2 * k + 4
    ensures NeuralNetwork.Update(n, inputs, sigmoid) == Err(IndexOutOfBounds)
  {
    assert NeuralNetwork.Shaped(NeuralNetwork.DefaultTopology(k), 0, n.layers[0]);
    ShipInputsOverrunDefaultNetwork(k, n.layers[0], inputs, sigmoid);
    NeuralNetwork.FeedStopsAtFirstLayer(n.layers, inputs, sigmoid, |n.layers|);
    assert n.layers[..|n.layers|] == n.layers;
  }
}

=== FILE: simulation.dfy ===
/**
 * One episode of the simulation package: the asteroid field, the ship, the
 * running flag and the episode timeout. Collision geometry is a pair of
 * predicate parameters; random draws for new asteroids are parameters.
 */
module Simulation {
  import opened Faults
  import Physics
  import Config
  import SimBullet
  import SimAsteroid
  import SimShip

  datatype SimState = SimState(
    asteroids: seq<SimAsteroid.Asteroid>,
    ship: SimShip.Ship,
    running: bool,
    timeoutArmed: bool)      // the episode timer is running

  /** Whether an asteroid touches the ship at this position and heading. */
  type ShipCollision = (SimAsteroid.Asteroid, real, real, real) -> bool

  /** Whether a bullet lies within an asteroid. */
  type BulletHit = (SimAsteroid.Asteroid, SimBullet.Bullet) -> bool

  /** A new simulation: no asteroids, a fresh ship, not running, episode timer started. */
  function New(): (s: SimState)
    ensures IsFinished(s) && s.asteroids == [] && s.timeoutArmed
  {
    SimState([], SimShip.New(), false, true)
  }

  predicate IsFinished(s: SimState) {
    !s.running
  }

  /**
   * start: running again with a reset ship that reports to the simulation,
   * and a fresh field of exactly `asteroids` size-1 asteroids; the episode
   * timer restarts.
   */
  function Start(c: Config.Configuration, s: SimState, draw: nat -> SimAsteroid.Draw): (r: SimState)
    ensures r.running && !IsFinished(r) && r.timeoutArmed
    ensures |r.asteroids| == c.asteroids
    ensures forall k :: 0 <= k < |r.asteroids| ==> r.asteroids[k].size == 1
    ensures r.ship == SimShip.SetCallbacks(SimShip.Reset(s.ship), true)
    ensures r.ship.asteroidsDestroyed == 0 && r.ship.bullets == []
  {
    var asteroids := seq(c.asteroids, k requires 0 <= k => SimAsteroid.New(1, draw(k)));
    assert forall k :: 0 <= k < |asteroids| ==> asteroids[k] == SimAsteroid.New(1, draw(k));
    SimState(asteroids, SimShip.SetCallbacks(SimShip.Reset(s.ship), true), true, true)
  }

  /** stop: the ship stops its timers and the episode is over. */
  function Stop(c: Config.Configuration, s: SimState): (r: SimState)
    ensures IsFinished(r)
    ensures r == s.(ship := SimShip.Stop(c, s.ship), running := false)
  {
    s.(ship := SimShip.Stop(c, s.ship), running := false)
  }

  /** Stopping is idempotent, so stopping once per colliding asteroid is stopping once. */
  lemma StopIsIdempotent(c: Config.Configuration, s: SimState)
    ensures Stop(c, Stop(c, s)) == Stop(c, s)
  {
    SimShip.StopSilencesTimers(c, s.ship);
  }

  /** The episode timer firing ends the episode, without stopping the ship. */
  function TimeoutElapsed(s: SimState): (r: SimState)
    ensures s.timeoutArmed ==> IsFinished(r) && !r.timeoutArmed && r.ship == s.ship && r.asteroids == s.asteroids
    ensures !s.timeoutArmed ==> r == s
  {
    if s.timeoutArmed then s.(running := false, timeoutArmed := false) else s
  }

  /* ---------------------------------------------------------------------- */
  /* Collision bookkeeping (onShipUpdated)                                   */
  /* ---------------------------------------------------------------------- */

  ghost predicate Hit(asteroids: seq<SimAsteroid.Asteroid>, bullets: seq<SimBullet.Bullet>, hits: BulletHit, a: nat, b: nat) {
    a < |asteroids| && b < |bullets| && hits(asteroids[a], bullets[b])
  }

  /** Bullet b is the first bullet in the list that hits asteroid a. */
  ghost predicate FirstHitter(asteroids: seq<SimAsteroid.Asteroid>, bullets: seq<SimBullet.Bullet>, hits: BulletHit, a: nat, b: nat) {
    Hit(asteroids, bullets, hits, a, b) && forall e: nat :: e < b ==> !Hit(asteroids, bullets, hits, a, e)
  }

  /** Recording order: bullet-major, then asteroid. */
  predicate Before(a: nat, b: nat, a': nat, b': nat) {
    b < b' || (b == b' && a < a')
  }

  /** The scan has visited every asteroid for bullets before b, and asteroids before a for bullet b itself. */
  predicate Visited(bulletIndex: nat, asteroidIndex: nat, a: nat, b: nat) {
    b < bulletIndex || (b == bulletIndex && a < asteroidIndex)
  }

  /**
   * What the recorded lists hold once the scan reaches (bulletIndex,
   * asteroidIndex): exactly the first hitters among the visited pairs, in
   * recording order, and an asteroid is recorded iff a visited bullet hits it.
   */
  ghost predicate Scanned(asteroids: seq<SimAsteroid.Asteroid>, bullets: seq<SimBullet.Bullet>, hits: BulletHit,
                          bulletIndex: nat, asteroidIndex: nat, asteroidsToRemove: seq<nat>, bulletsToRemove: seq<nat>) {
    && |asteroidsToRemove| == |bulletsToRemove| && SimShip.Distinct(asteroidsToRemove)
    && (forall k :: 0 <= k < |asteroidsToRemove| ==>
          && Visited(bulletIndex, asteroidIndex, asteroidsToRemove[k], bulletsToRemove[k])
          && FirstHitter(asteroids, bullets, hits, asteroidsToRemove[k], bulletsToRemove[k]))
    && (forall a: nat, b: nat :: Visited(bulletIndex, asteroidIndex, a, b) && FirstHitter(asteroids, bullets, hits, a, b) ==>
          exists k :: 0 <= k < |asteroidsToRemove| && asteroidsToRemove[k] == a && bulletsToRemove[k] == b)
    && (forall k, l :: 0 <= k < l < |asteroidsToRemove| ==>
          Before(asteroidsToRemove[k], bulletsToRemove[k], asteroidsToRemove[l], bulletsToRemove[l]))
    && (forall a: nat :: a in asteroidsToRemove <==>
          exists b: nat :: Visited(bulletIndex, asteroidIndex, a, b) && Hit(asteroids, bullets, hits, a, b))
  }

  /**
   * The finished scan: the recorded pairs are exactly the (asteroid, first
   * bullet to hit it) pairs, each asteroid once, in recording order, and an
   * asteroid is recorded iff some bullet hits it.
   */
  ghost predicate HitsRecorded(asteroids: seq<SimAsteroid.Asteroid>, bullets: seq<SimBullet.Bullet>, hits: BulletHit,
                               asteroidsToRemove: seq<nat>, bulletsToRemove: seq<nat>) {
    && |asteroidsToRemove| == |bulletsToRemove|
    && SimShip.Distinct(asteroidsToRemove)
    && (forall k :: 0 <= k < |asteroidsToRemove| ==>
          FirstHitter(asteroids, bullets, hits, asteroidsToRemove[k], bulletsToRemove[k]))
    && (forall a: nat, b: nat :: FirstHitter(asteroids, bullets, hits, a, b) ==>
          exists k :: 0 <= k < |asteroidsToRemove| && asteroidsToRemove[k] == a && bulletsToRemove[k] == b)
    && (forall k, l :: 0 <= k < l < |asteroidsToRemove| ==>
          Before(asteroidsToRemove[k], bulletsToRemove[k], asteroidsToRemove[l], bulletsToRemove[l]))
    && (forall a: nat :: a in asteroidsToRemove <==> exists b: nat :: Hit(asteroids, bullets, hits, a, b))
  }

  /**
   * The nested scan of onShipUpdated: for every bullet in order, every
   * asteroid not yet recorded that the bullet hits is recorded together
   * with that bullet. So each asteroid is recorded at most once, with the
   * first bullet that hits it, and a bullet is recorded once for every
   * asteroid it is the first to hit.
   */
  method CollectHits(asteroids: seq<SimAsteroid.Asteroid>, bullets: seq<SimBullet.Bullet>, hits: BulletHit)
    returns (asteroidsToRemove: seq<nat>, bulletsToRemove: seq<nat>)
    ensures HitsRecorded(asteroids, bullets, hits, asteroidsToRemove, bulletsToRemove)
  {
    asteroidsToRemove, bulletsToRemove := [], [];
    var bulletIndex: nat := 0;
    while bulletIndex < |bullets|
      invariant bulletIndex <= |bullets|
      invariant Scanned(asteroids, bullets, hits, bulletIndex, 0, asteroidsToRemove, bulletsToRemove)
    {
      var asteroidIndex: nat := 0;
      while asteroidIndex < |asteroids|
        invariant asteroidIndex <= |asteroids|
        invariant Scanned(asteroids, bullets, hits, bulletIndex, asteroidIndex, asteroidsToRemove, bulletsToRemove)
      {
        asteroidsToRemove, bulletsToRemove :=
          RecordIfFirst(asteroids, bullets, hits, bulletIndex, asteroidIndex, asteroidsToRemove, bulletsToRemove);
        asteroidIndex := asteroidIndex + 1;
      }
      NextBullet(asteroids, bullets, hits, bulletIndex, asteroidsToRemove, bulletsToRemove);
      bulletIndex := bulletIndex + 1;
    }
    ScanComplete(asteroids, bullets, hits, asteroidsToRemove, bulletsToRemove);
  }

  /** One step of the inner scan: record the pair when the asteroid is not yet recorded and the bullet hits it. */
  method RecordIfFirst(asteroids: seq<SimAsteroid.Asteroid>, bullets: seq<SimBullet.Bullet>, hits: BulletHit,
                       bulletIndex: nat, asteroidIndex: nat, asteroidsIn: seq<nat>, bulletsIn: seq<nat>)
    returns (asteroidsToRemove: seq<nat>, bulletsToRemove: seq<nat>)
    requires bulletIndex < |bullets| && asteroidIndex < |asteroids|
    requires Scanned(asteroids, bullets, hits, bulletIndex, asteroidIndex, asteroidsIn, bulletsIn)
    ensures Scanned(asteroids, bullets, hits, bulletIndex, asteroidIndex + 1, asteroidsToRemove, bulletsToRemove)
    ensures asteroidsToRemove == asteroidsIn + (if FirstHitter(asteroids, bullets, hits, asteroidIndex, bulletIndex) then [asteroidIndex] else [])
  {
    assert asteroidIndex in asteroidsIn ==> !FirstHitter(asteroids, bullets, hits, asteroidIndex, bulletIndex);
    if asteroidIndex !in asteroidsIn && hits(asteroids[asteroidIndex], bullets[bulletIndex]) {
      assert FirstHitter(asteroids, bullets, hits, asteroidIndex, bulletIndex);
      asteroidsToRemove := asteroidsIn + [asteroidIndex];
      bulletsToRemove := bulletsIn + [bulletIndex];
      forall a: nat, b: nat | Visited(bulletIndex, asteroidIndex + 1, a, b) && FirstHitter(asteroids, bullets, hits, a, b)
        ensures exists k :: 0 <= k < |asteroidsToRemove| && asteroidsToRemove[k] == a && bulletsToRemove[k] == b
      {
        if b == bulletIndex && a == asteroidIndex {
          assert asteroidsToRemove[|asteroidsIn|] == a && bulletsToRemove[|asteroidsIn|] == b;
        } else {
          var k :| 0 <= k < |asteroidsIn| && asteroidsIn[k] == a && bulletsIn[k] == b;
          assert asteroidsToRemove[k] == a && bulletsToRemove[k] == b;
        }
      }
    } else {
      asteroidsToRemove, bulletsToRemove := asteroidsIn, bulletsIn;
    }
  }

  /** A finished row for one bullet is the starting point for the next bullet. */
  lemma NextBullet(asteroids: seq<SimAsteroid.Asteroid>, bullets: seq<SimBullet.Bullet>, hits: BulletHit,
                   bulletIndex: nat, asteroidsToRemove: seq<nat>, bulletsToRemove: seq<nat>)
    requires Scanned(asteroids, bullets, hits, bulletIndex, |asteroids|, asteroidsToRemove, bulletsToRemove)
    ensures Scanned(asteroids, bullets, hits, bulletIndex + 1, 0, asteroidsToRemove, bulletsToRemove)
  {
    forall a: nat | a in asteroidsToRemove
      ensures exists b: nat :: Visited(bulletIndex + 1, 0, a, b) && Hit(asteroids, bullets, hits, a, b)
    {
      var b: nat :| Visited(bulletIndex, |asteroids|, a, b) && Hit(asteroids, bullets, hits, a, b);
      assert Visited(bulletIndex + 1, 0, a, b);
    }
    forall a: nat | exists b: nat :: Visited(bulletIndex + 1, 0, a, b) && Hit(asteroids, bullets, hits, a, b)
      ensures a in asteroidsToRemove
    {
      var b: nat :| Visited(bulletIndex + 1, 0, a, b) && Hit(asteroids, bullets, hits, a, b);
      assert Visited(bulletIndex, |asteroids|, a, b);
    }
  }

  /** Once every bullet is scanned, every pair has been visited. */
  lemma ScanComplete(asteroids: seq<SimAsteroid.Asteroid>, bullets: seq<SimBullet.Bullet>, hits: BulletHit,
                     asteroidsToRemove: seq<nat>, bulletsToRemove: seq<nat>)
    requires Scanned(asteroids, bullets, hits, |bullets|, 0, asteroidsToRemove, bulletsToRemove)
    ensures forall a: nat, b: nat :: FirstHitter(asteroids, bullets, hits, a, b) ==>
      exists k :: 0 <= k < |asteroidsToRemove| && asteroidsToRemove[k] == a && bulletsToRemove[k] == b
    ensures forall a: nat :: a in asteroidsToRemove <==> exists b: nat :: Hit(asteroids, bullets, hits, a, b)
  {
    forall a: nat, b: nat | FirstHitter(asteroids, bullets, hits, a, b)
      ensures exists k :: 0 <= k < |asteroidsToRemove| && asteroidsToRemove[k] == a && bulletsToRemove[k] == b
    {
      assert Visited(|bullets|, 0, a, b);
    }
    forall a: nat | exists b: nat :: Hit(asteroids, bullets, hits, a, b)
      ensures a in asteroidsToRemove
    {
      var b: nat :| Hit(asteroids, bullets, hits, a, b);
      assert Visited(|bullets|, 0, a, b);
    }
  }

  /**
   * `bulletsToRemove.forEach { bullets.elementAtOrNull(it)?.explode() }`
   * on the ship's own list: each index is looked up in the list as it
   * stands then, since every explosion removes a bullet from it.
   */
  function ExplodeAll(s: SimShip.Ship, indices: seq<nat>): (r: SimShip.Ship)
    ensures r.asteroidsDestroyed >= s.asteroidsDestroyed
    ensures r == s.(bullets := r.bullets, asteroidsDestroyed := r.asteroidsDestroyed)
    decreases |indices|
  {
    if |indices| == 0 then s
    else
      var next := if indices[0] < |s.bullets| then SimShip.HandleEvents(s, SimBullet.Explode(s.bullets[indices[0]])) else s;
      ExplodeAll(next, indices[1..])
  }

  ghost predicate AllListening(bullets: seq<SimBullet.Bullet>) {
    forall k :: 0 <= k < |bullets| ==> bullets[k].listening
  }

  /**
   * When every bullet reports to the ship, each explosion trades one bullet
   * in flight for one kill: their sum is conserved, and every index that
   * still names a bullet when its turn comes scores.
   */
  lemma {:induction false} ExplosionsTradeBulletsForKills(s: SimShip.Ship, indices: seq<nat>)
    requires AllListening(s.bullets)
    ensures AllListening(ExplodeAll(s, indices).bullets)
    ensures ExplodeAll(s, indices).asteroidsDestroyed + |ExplodeAll(s, indices).bullets| == s.asteroidsDestroyed + |s.bullets|
    ensures ExplodeAll(s, indices).asteroidsDestroyed <= s.asteroidsDestroyed + |indices|
    decreases |indices|
  {
    if |indices| > 0 {
      if indices[0] < |s.bullets| {
        ExplodeOne(s, indices[0]);
        ExplosionsTradeBulletsForKills(SimShip.HandleEvents(s, SimBullet.Explode(s.bullets[indices[0]])), indices[1..]);
      } else {
        ExplosionsTradeBulletsForKills(s, indices[1..]);
      }
    }
  }

  /** Exploding one listening bullet removes it and scores one kill; the others keep listening. */
  lemma ExplodeOne(s: SimShip.Ship, index: nat)
    requires AllListening(s.bullets) && index < |s.bullets|
    ensures var next := SimShip.HandleEvents(s, SimBullet.Explode(s.bullets[index]));
      && AllListening(next.bullets)
      && |next.bullets| + 1 == |s.bullets|
      && next.asteroidsDestroyed == s.asteroidsDestroyed + 1
  {
    var b := s.bullets[index];
    var next := SimShip.OnBulletExploded(s, b.serial);
    assert SimBullet.Explode(b)[1..] == [];
    assert SimShip.HandleEvents(s, SimBullet.Explode(b)) == next;
    var found := SimShip.IndexOfSerial(s.bullets, b.serial);
    assert found.Some?;
    var i := found.value;
    assert next.bullets == s.bullets[..i] + s.bullets[i + 1..];
    forall k | 0 <= k < |next.bullets|
      ensures next.bullets[k].listening
    {
      assert next.bullets[k] == (if k < i then s.bullets[k] else s.bullets[k + 1]);
    }
  }

  /** The in-file `Asteroid(size, parent)`: fresh draws for everything, then the parent's position. */
  function Chunk(size: int, parent: SimAsteroid.Asteroid, d: SimAsteroid.Draw): (a: SimAsteroid.Asteroid)
    ensures a.size == size && a.x == parent.x && a.y == parent.y && a.rot == 0.0
    ensures a.vX == SimAsteroid.New(size, d).vX && a.vY == SimAsteroid.New(size, d).vY
  {
    SimAsteroid.New(size, d).(x := parent.x, y := parent.y)
  }

  /** A chunk drawn from the random source's ranges moves less than its size along each axis. */
  lemma ChunkSpeedBoundedBySize(size: int, parent: SimAsteroid.Asteroid, d: SimAsteroid.Draw)
    requires SimAsteroid.ValidDraw(d) && 0 < size
    ensures -(size as real) <= Chunk(size, parent, d).vX < size as real
    ensures -(size as real) <= Chunk(size, parent, d).vY < size as real
  {
    SimAsteroid.NewSpeedBoundedBySize(size, d);
  }

  /** The chunks an asteroid breaks into: chunkCount of the next size while that size stays within maxChunkFactor. */
  function Chunks(c: Config.Configuration, parent: SimAsteroid.Asteroid, splitIndex: nat, draw: (nat, nat) -> SimAsteroid.Draw): (r: seq<SimAsteroid.Asteroid>)
    ensures parent.size + 1 <= c.maxChunkFactor ==> |r| == c.chunkCount
    ensures parent.size + 1 > c.maxChunkFactor ==> r == []
    ensures forall k :: 0 <= k < |r| ==> r[k].size == parent.size + 1 && r[k].x == parent.x && r[k].y == parent.y
  {
    if parent.size + 1 <= c.maxChunkFactor then
      var chunks := seq(c.chunkCount, k requires 0 <= k => Chunk(parent.size + 1, parent, draw(splitIndex, k)));
      assert forall k :: 0 <= k < |chunks| ==> chunks[k] == Chunk(parent.size + 1, parent, draw(splitIndex, k));
      chunks
    else []
  }

  /**
   * Config.Lineage follows the split rule: an asteroid counts itself plus the
   * lineage of every chunk its split appends.
   */
  lemma LineageFollowsChunks(c: Config.Configuration, parent: SimAsteroid.Asteroid, splitIndex: nat,
                             draw: (nat, nat) -> SimAsteroid.Draw)
    ensures Config.Lineage(c, parent.size) == 1 + |Chunks(c, parent, splitIndex, draw)| * Config.Lineage(c, parent.size + 1)
  {
    if parent.size + 1 > c.maxChunkFactor {
      assert Chunks(c, parent, splitIndex, draw) == [];
    }
  }

  /**
   * One step of the removal loop: the asteroid at `index`, if there is one,
   * has its chunks appended and is then itself removed.
   */
  function SplitAt(c: Config.Configuration, asteroids: seq<SimAsteroid.Asteroid>, index: nat, splitIndex: nat,
                   draw: (nat, nat) -> SimAsteroid.Draw): (r: seq<SimAsteroid.Asteroid>)
    ensures index >= |asteroids| ==> r == asteroids
    ensures index < |asteroids| ==>
      var parent := asteroids[index];
      && |r| == |asteroids| - 1 + (if parent.size + 1 <= c.maxChunkFactor then c.chunkCount else 0)
      && r[..index] == asteroids[..index]
      && r[index..|asteroids| - 1] == asteroids[index + 1..]
      && forall k :: |asteroids| - 1 <= k < |r| ==>
           r[k].size == parent.size + 1 && r[k].x == parent.x && r[k].y == parent.y
  {
    if index < |asteroids| then
      var chunks := Chunks(c, asteroids[index], splitIndex, draw);
      var r := asteroids[..index] + asteroids[index + 1..] + chunks;
      assert r[..index] == asteroids[..index];
      assert r[index..|asteroids| - 1] == asteroids[index + 1..];
      r
    else asteroids
  }

  /** The removal loop over all recorded asteroid indices, in order, on the list as it changes. */
  function SplitAll(c: Config.Configuration, asteroids: seq<SimAsteroid.Asteroid>, indices: seq<nat>,
                    draw: (nat, nat) -> SimAsteroid.Draw): seq<SimAsteroid.Asteroid>
    decreases |indices|
  {
    if |indices| == 0 then asteroids
    else SplitAll(c, SplitAt(c, asteroids, indices[0], |indices|, draw), indices[1..], draw)
  }

  ghost predicate SizesWithin(c: Config.Configuration, asteroids: seq<SimAsteroid.Asteroid>) {
    forall k :: 0 <= k < |asteroids| ==> 1 <= asteroids[k].size <= c.maxChunkFactor
  }

  /** Splitting never makes an asteroid smaller than size 1 or larger than maxChunkFactor. */
  lemma {:induction false} SplitKeepsSizesWithin(c: Config.Configuration, asteroids: seq<SimAsteroid.Asteroid>,
                                                  indices: seq<nat>, draw: (nat, nat) -> SimAsteroid.Draw)
    requires SizesWithin(c, asteroids)
    ensures SizesWithin(c, SplitAll(c, asteroids, indices, draw))
    decreases |indices|
  {
    if |indices| > 0 {
      var next := SplitAt(c, asteroids, indices[0], |indices|, draw);
      assert SizesWithin(c, next) by {
        if indices[0] < |asteroids| {
          var i := indices[0];
          forall k | 0 <= k < |next|
            ensures 1 <= next[k].size <= c.maxChunkFactor
          {
            if k < i {
              assert next[k] == next[..i][k];
            } else if k < |asteroids| - 1 {
              assert next[k] == next[i..|asteroids| - 1][k - i];
            }
          }
        }
      }
      SplitKeepsSizesWithin(c, next, indices[1..], draw);
    }
  }

  /**
   * onShipUpdated: collect the hits, explode the recorded bullets, split the
   * recorded asteroids, and stop once no asteroid is left.
   */
  method OnShipUpdated(c: Config.Configuration, s: SimState, hits: BulletHit, draw: (nat, nat) -> SimAsteroid.Draw)
    returns (r: SimState, asteroidsToRemove: seq<nat>, bulletsToRemove: seq<nat>)
    ensures HitsRecorded(s.asteroids, s.ship.bullets, hits, asteroidsToRemove, bulletsToRemove)
    ensures r.asteroids == SplitAll(c, s.asteroids, asteroidsToRemove, draw)
    ensures r.ship == StoppedShipIf(c, ExplodeAll(s.ship, bulletsToRemove), |r.asteroids| == 0)
    ensures r.running == (s.running && |r.asteroids| > 0)
    ensures |r.asteroids| == 0 ==> IsFinished(r)
    ensures AllListening(s.ship.bullets) ==>
      r.ship.asteroidsDestroyed + |r.ship.bullets| == s.ship.asteroidsDestroyed + |s.ship.bullets|
    ensures r.timeoutArmed == s.timeoutArmed
    ensures r.ship.x == s.ship.x && r.ship.y == s.ship.y && r.ship.rot == s.ship.rot
  {
    asteroidsToRemove, bulletsToRemove := CollectHits(s.asteroids, s.ship.bullets, hits);
    var ship := ExplodeAll(s.ship, bulletsToRemove);
    if AllListening(s.ship.bullets) {
      ExplosionsTradeBulletsForKills(s.ship, bulletsToRemove);
    }
    var asteroids := SplitAll(c, s.asteroids, asteroidsToRemove, draw);
    r := s.(ship := ship, asteroids := asteroids);
    if |asteroids| == 0 {
      r := Stop(c, r);
    }
  }

  /* ---------------------------------------------------------------------- */
  /* One frame                                                               */
  /* ---------------------------------------------------------------------- */

  /** Some asteroid, after its move, touches the ship where it stands. */
  predicate Crashed(moved: seq<SimAsteroid.Asteroid>, ship: SimShip.Ship, collides: ShipCollision) {
    exists k :: 0 <= k < |moved| && collides(moved[k], ship.x, ship.y, ship.rot)
  }

  /**
   * The asteroid loop of update: each asteroid moves in turn, and every one
   * that then touches the ship stops the episode.
   */
  method MoveAsteroids(c: Config.Configuration, s: SimState, collides: ShipCollision) returns (state: SimState)
    ensures |state.asteroids| == |s.asteroids|
    ensures forall j :: 0 <= j < |s.asteroids| ==> state.asteroids[j] == SimAsteroid.Update(s.asteroids[j])
    ensures state.running <==> s.running && !Crashed(state.asteroids, s.ship, collides)
    ensures state.ship == StoppedShipIf(c, s.ship, Crashed(state.asteroids, s.ship, collides))
    ensures state.timeoutArmed == s.timeoutArmed
  {
    state := s;
    var k := 0;
    while k < |s.asteroids|
      invariant k <= |s.asteroids| && |state.asteroids| == |s.asteroids|
      invariant forall j :: 0 <= j < k ==> state.asteroids[j] == SimAsteroid.Update(s.asteroids[j])
      invariant forall j :: k <= j < |s.asteroids| ==> state.asteroids[j] == s.asteroids[j]
      invariant state == StoppedIf(c, s, Crashed(state.asteroids[..k], s.ship, collides)).(asteroids := state.asteroids)
    {
      var moved := SimAsteroid.Update(state.asteroids[k]);
      CrashedAppend(state.asteroids[..k], moved, s.ship, collides);
      assert state.asteroids[k := moved][..k + 1] == state.asteroids[..k] + [moved];
      state := state.(asteroids := state.asteroids[k := moved]);
      if collides(moved, state.ship.x, state.ship.y, state.ship.rot) {
        StopIsIdempotent(c, s);
        state := Stop(c, state);
      }
      k := k + 1;
    }
    assert state.asteroids[..k] == state.asteroids;
  }

  /** The ship, stopped when `stop` holds. */
  function StoppedShipIf(c: Config.Configuration, ship: SimShip.Ship, stop: bool): SimShip.Ship {
    if stop then SimShip.Stop(c, ship) else ship
  }

  /** `s`, stopped when `stop` holds. */
  function StoppedIf(c: Config.Configuration, s: SimState, stop: bool): SimState {
    if stop then Stop(c, s) else s
  }

  /** One more asteroid has crashed into the ship iff it, or one before it, touches the ship. */
  lemma CrashedAppend(moved: seq<SimAsteroid.Asteroid>, next: SimAsteroid.Asteroid, ship: SimShip.Ship, collides: ShipCollision)
    ensures Crashed(moved + [next], ship, collides) <==> Crashed(moved, ship, collides) || collides(next, ship.x, ship.y, ship.rot)
  {
    if collides(next, ship.x, ship.y, ship.rot) {
      assert (moved + [next])[|moved|] == next;
    }
    if Crashed(moved, ship, collides) {
      var k :| 0 <= k < |moved| && collides(moved[k], ship.x, ship.y, ship.rot);
      assert (moved + [next])[k] == moved[k];
    }
  }

  /**
   * update: nothing while the episode is not running. Otherwise every
   * asteroid moves (`moved`) and the episode stops if one touches the ship;
   * the ship then updates (even after such a stop), and when it reports to
   * the simulation the collision bookkeeping runs on the moved field and the
   * updated ship's bullets. A failing network call fails the frame.
   */
  method Update(c: Config.Configuration, s: SimState, collides: ShipCollision, hits: BulletHit,
                brain: seq<real> -> Result<seq<real>>, trig: Physics.Trig, draw: (nat, nat) -> SimAsteroid.Draw)
    returns (r: Result<SimState>, moved: seq<SimAsteroid.Asteroid>, inputs: seq<real>, sensed: seq<(real, real)>,
             asteroidsToRemove: seq<nat>, bulletsToRemove: seq<nat>)
    ensures !s.running ==> r == Ok(s)
    ensures s.running ==> |moved| == |s.asteroids|
    ensures s.running ==> forall k :: 0 <= k < |s.asteroids| ==> moved[k] == SimAsteroid.Update(s.asteroids[k])
    ensures s.running ==> exists picked :: SimShip.SensesNearest(c.asteroidsToConsider, s.ship.x, s.ship.y, moved, sensed, picked)
    ensures s.running ==> inputs == SimShip.NetworkInputs(sensed, SimShip.Heading(trig, s.ship.rot), (s.ship.vX, s.ship.vY))
    ensures s.running ==> (r.Err? <==> brain(inputs).Err? || |brain(inputs).value| < 3)
    ensures r.Ok? && s.running ==>
      var acted := SimShip.Act(c, SimShip.Observed(StoppedShipIf(c, s.ship, Crashed(moved, s.ship, collides)), sensed, trig),
                               brain(inputs).value, trig);
      && (s.ship.listening ==> HitsRecorded(moved, acted.bullets, hits, asteroidsToRemove, bulletsToRemove))
      && r.value.asteroids == (if s.ship.listening then SplitAll(c, moved, asteroidsToRemove, draw) else moved)
      && r.value.ship == (if s.ship.listening
                          then StoppedShipIf(c, ExplodeAll(acted, bulletsToRemove), |r.value.asteroids| == 0)
                          else acted)
    ensures r.Ok? && s.running ==>
      r.value.running == (!Crashed(moved, s.ship, collides) && (s.ship.listening ==> |r.value.asteroids| > 0))
    ensures r.Ok? ==> r.value.timeoutArmed == s.timeoutArmed
    ensures r.Ok? && s.running ==> 0.0 <= r.value.ship.x <= Physics.SIM_WIDTH && 0.0 <= r.value.ship.y <= Physics.SIM_HEIGHT
  {
    if !s.running {
      return Ok(s), [], [], [], [], [];
    }
    var state := MoveAsteroids(c, s, collides);
    moved := state.asteroids;
    var updated, picked;
    updated, inputs, sensed, picked := SimShip.Update(c, state.ship, moved, brain, trig);
    if updated.Err? {
      return Err(updated.error), moved, inputs, sensed, [], [];
    }
    state := state.(ship := updated.value);
    asteroidsToRemove, bulletsToRemove := [], [];
    if state.ship.listening {
      state, asteroidsToRemove, bulletsToRemove := OnShipUpdated(c, state, hits, draw);
    }
    r := Ok(state);
  }

  /**
   * Every frame keeps asteroid sizes between 1 and maxChunkFactor: moving
   * leaves sizes alone and splitting only adds chunks of a size that fits.
   */
  lemma FrameKeepsSizesWithin(c: Config.Configuration, asteroids: seq<SimAsteroid.Asteroid>, moved: seq<SimAsteroid.Asteroid>,
                              listening: bool, indices: seq<nat>, draw: (nat, nat) -> SimAsteroid.Draw)
    requires SizesWithin(c, asteroids)
    requires |moved| == |asteroids| && forall k :: 0 <= k < |asteroids| ==> moved[k] == SimAsteroid.Update(asteroids[k])
    ensures SizesWithin(c, if listening then SplitAll(c, moved, indices, draw) else moved)
  {
    assert SizesWithin(c, moved) by {
      forall k | 0 <= k < |moved| ensures 1 <= moved[k].size <= c.maxChunkFactor {
        assert moved[k].size == asteroids[k].size;
      }
    }
    SplitKeepsSizesWithin(c, moved, indices, draw);
  }

  /** The in-file ship's continuous thrust: ((1 - 0) / (1 - -1)) * (o - 1) + 1, from [-1, 1] onto [0, 1]. */
  function ContinuousThrust(o: real): (r: real)
    ensures r == (o + 1.0) / 2.0
    ensures -1.0 <= o <= 1.0 <==> 0.0 <= r <= 1.0
  {
    ((1.0 - 0.0) / (1.0 - -1.0)) * (o - 1.0) + 1.0
  }
}
